=== FILE: README.md ===
# scirnap pipeline core in Dafny

scirnap wraps command-line RNA-seq tools (FastQC, Cutadapt, HISAT2, samtools merge and
sort, GTF2Bed, StringTie, featureCounts) behind one Python base class, `BasePipeline`. Each
tool subclass builds a shell command for a file or a list of files (`generate_cmd`). The
base class finds input files in a data directory, writes every command to a log with a
timestamp, and runs the command unless this is a dry run. It has three run entry points:
one file, the whole list as one batch, and each file separately, either in a loop or
through a thread pool. Every entry point closes the log when it finishes.

This project models that core:

- `Results` holds the `Option`/`Result` wrappers and the error kinds: the exceptions the
  source raises and the early returns it reports.
- `Text` holds the Python string operations the commands use: substring `in`, `split`,
  `join`, slicing off the last characters, and the first piece before a separator.
- `Paths` holds the POSIX rule of `os.path.join`, the `ntpath`-style `_get_filename`, and
  `_gen_fname_str` (`<output_dir>/<name>-<ddmmyyyy>_<file name>`).
- `PoolCmd`, `SortCmd`, `Gtf2BedCmd`, `FastQCCmd`, `FeatureCountsCmd`, `StringTieCmd`,
  `CutadaptCmd` and `Hisat2Cmd` hold each subclass's command builder and defaults. They
  also hold Cutadapt's QC-table filter and HISAT2's summary extraction.
- `Pipeline` is the engine. The class `BasePipeline` has the original object's fields,
  one named constructor per subclass, and one method per engine method. Those methods are
  proved against specification functions (`Generate`, `Exec`, `Unit`, `RunSeq`,
  `RunAll`, `PerFile`, `Discover`).
- `ByteRepr` holds Python's `repr` of a `bytes` value, which is how the constructor logs
  the `--version` output, and the reading of its escapes back into bytes.
- `PipelineFacts` proves what a run promises. Every spawned process has its log record,
  and a dry run spawns nothing. A closed log takes no more records. The thread count is
  clamped. A pool run logs every unit exactly once, and a unit that fails does not keep
  the others from being logged. A batch run logs one command that names every input.

`run_per_file` takes a list of units: each is what one `generate_cmd` call receives, a
path for most tools and a group of paths for Pool, which merges each group into one file.

The clock and the environment are parameters. Each run takes the date and one timestamp
per logged command. Each constructor takes an `Env` holding the bytes the `--version`
probe printed and the directories already on disk. The version record holds the `repr` of
those bytes (`b'...'`, with any newline escaped), and it is written only when there is at
least one byte. It is written without a newline after it, so in the log file the first
parameter record, or the first command record, continues the same line. A spawned process is counted (`spawned`), not performed. The
`--version` probe counts as the first spawned process; a dry run does not skip it.

Three behaviours of the code that the model keeps:

- `run_per_file` uses the thread pool whenever `nthreads` is truthy, including a count of
  1 and negative counts. A negative count, or a requested count with an empty list,
  makes a pool of fewer than one worker, and the run fails.
- A failing command build raises out of the entry point before the log is closed. The
  log stays open, and nothing is closed on error paths.
- The single/paired check `s_or_p not in ['s' or 'p']` compares against `['s']`, so
  `"p"` is rejected. An object built with another mode keeps `data_dir` as its output
  directory and has no setup; its command build fails (`NotConfigured`).

## Model

| member | source | states |
|---|---|---|
| Paths.Join | scirnap/base.py:94 | the result ends with the second part; a relative second part keeps the first part as a prefix; an absolute one replaces it |
| Paths.DirKey | scirnap/stringtie.py:44 | the directory a path names for `os.mkdir`: the path without its trailing `/`, or `/` for a path made only of `/` |
| Paths.DirKeySlash | scirnap/stringtie.py:43-44 | a trailing `/` names the same directory |
| Paths.SplitPath | scirnap/base.py:153 | `ntpath.split`: the tail is the separator-free suffix, empty exactly when the path is empty or ends in a separator; the head is the text before the tail with its trailing separators stripped, only separators lying between head and tail, except that a head made only of separators is kept whole |
| Paths.GetFilename | scirnap/base.py:151-154 | the file name is no longer than the path; `GetFilenameIsLastComponent` shows it is the last component |
| Paths.Tail | scirnap/base.py:153 | the tail is a separator-free suffix of the path |
| Paths.RStripSeps | scirnap/base.py:153-154 | a prefix of the path that does not end in a separator, followed in the path only by separators: exactly the trailing separators are removed |
| Paths.GenFnameStr | scirnap/base.py:156-158 | the generated name ends in `_` plus the input's file name and, for a relative tool name, starts with the output directory |
| Paths.GetFilenameIsLastComponent | scirnap/base.py:151-154 | `_get_filename` is the last component once trailing `/` or `\` are dropped, and it holds no separator |
| Paths.GetFilenameNoSep | scirnap/base.py:151-154 | a file name never contains a separator |
| Paths.TailAfterSep | scirnap/base.py:153 | after a separator, a separator-free name is the tail |
| Paths.GetFilenameOfName | scirnap/base.py:151-154 | a bare name is its own file name |
| Paths.GetFilenameOfJoin | scirnap/base.py:151-154 | joining a directory and a name, then taking the file name, gives the name back |
| Paths.GetFilenameTrailingSep | scirnap/base.py:151-154 | one trailing separator does not change the file name |
| Paths.JoinInjective | scirnap/base.py:94 | joining to the same directory is injective in relative names |
| Paths.NoSepConcat | scirnap/base.py:156-158 | concatenating separator-free strings gives a separator-free string |
| Paths.LocalNameNoSep | scirnap/base.py:156-158 | the `<name>-<date>_<file>` part has no separator when its pieces have none |
| Paths.JoinAppend | scirnap/base.py:157 | text appended after a relative second part can be appended after the join |
| Paths.GenFnameInOutputDir | scirnap/base.py:156-158 | the generated file lies directly in the output directory, named `<name>-<date>_<file name>` |
| Paths.JoinedFileName | scirnap/base.py:156-158 | the file name of `join(dir, name)-date_file` is `name-date_file` |
| Paths.GenFnameOfJoinedInput | scirnap/base.py:156-158 | an input `<dir>/<file>` gives `<output_dir>/<name>-<date>_<file>`: the input's directory never survives |
| Text.ContainsAt | scirnap/base.py:93 | substring `in` holds exactly when the substring occurs at some position |
| Text.ContainsHasOccurrence | scirnap/base.py:93 | a string that contains a substring has an occurrence of it at some position |
| Text.OccurrenceContains | scirnap/base.py:93 | an occurrence at any position means the string contains the substring |
| Text.ContainsMiddle | scirnap/base.py:93 | a string framed by anything contains it |
| Text.ContainsSuffix | scirnap/pool.py:36 | containment survives prepending text |
| Text.ContainsPrefix | scirnap/base.py:78 | containment survives appending text |
| Text.Split | scirnap/sort.py:32 | `split` yields at least one piece and no piece holds the separator |
| Text.FirstPiece | scirnap/stringtie.py:43 | `split(c)[0]` is a separator-free prefix followed by the separator when shorter |
| Text.SplitFirst | scirnap/stringtie.py:43 | the first piece is a prefix, followed by the separator when shorter than the string |
| Text.JoinSplit | scirnap/sort.py:32 | joining the pieces of a split on the same character gives the string back |
| Text.SplitNoSep | scirnap/sort.py:32 | a string without the separator splits into itself |
| Text.SplitAround | scirnap/sort.py:32 | splitting `a + c + b` is splitting `a` then `b` |
| Text.JoinPrefix | scirnap/sort.py:32 | joining a prefix of the pieces gives a prefix of the joined string |
| Text.JoinContains | scirnap/pool.py:36 | a joined list contains every element |
| Text.DropLast | scirnap/gtf2bed.py:36 | `s[:-n]` drops exactly `n` characters, or everything when shorter |
| PoolCmd.OutputName | scirnap/pool.py:35 | empty group fails; a non-empty rename map gives `map[first]` or a missing-key error; an empty map gives the first file's name |
| PoolCmd.Command | scirnap/pool.py:36 | the command fails exactly when the name does, with its error; otherwise it is `<program> merge <output dir>/<name>.merged.bam ` followed by exactly the files space-joined in order |
| PoolCmd.NameFromFirstOnly | scirnap/pool.py:35 | the output name depends only on the first file |
| PoolCmd.CommandNamesEveryFile | scirnap/pool.py:36 | the merge command contains every input path |
| PoolCmd.CommandNamesAll | scirnap/pool.py:36 | a merge command that builds contains every one of its input paths |
| SortCmd.Command | scirnap/sort.py:30-33 | `<program> sort <path> -o ` followed by exactly `join(output_dir, stem).sorted.bam` |
| SortCmd.StemIsPrefix | scirnap/sort.py:32 | the stem is a prefix of the basename |
| SortCmd.FewPiecesEmptyStem | scirnap/sort.py:32 | fewer than three dot-pieces give an empty stem |
| SortCmd.StemDropsTwoEndings | scirnap/sort.py:32 | `x.a.b` has stem `x` for dot-free `a`, `b` |
| SortCmd.MergedThenSorted | scirnap/sort.py:32-33 | sorting Pool's merged BAM of group `name` writes `<dir>/<name>.sorted.bam` |
| SortCmd.MergedFileName | scirnap/pool.py:36 | the merged BAM's file name is `<name>.merged.bam` |
| SortCmd.StemOfMerged | scirnap/sort.py:32 | the stem of `<name>.merged.bam` is `name` |
| FastQCCmd.Command | scirnap/fastqc.py:30-31 | exactly `<program> -o <output_dir> <path>` (prefix, suffix and length) |
| FeatureCountsCmd.Params | scirnap/featurecounts.py:31 | exactly "GTF path" and "Param str", in that order |
| FeatureCountsCmd.Command | scirnap/featurecounts.py:34-36 | fails exactly on an empty list; otherwise `<program> <params> -a <gtf> -o <first file's generated name>.txt ` followed by exactly the files space-joined in order |
| FeatureCountsCmd.CommandNamesEveryFile | scirnap/featurecounts.py:36 | the batch command contains every input path |
| FeatureCountsCmd.CommandNamesAll | scirnap/featurecounts.py:34-36 | a non-empty list builds, and the command contains every input path |
| FeatureCountsCmd.SameFirstSameTable | scirnap/featurecounts.py:35 | two lists with the same first file write the same counts table |
| Gtf2BedCmd.BedPath | scirnap/gtf2bed.py:36 | the output ends in `.bed` |
| Gtf2BedCmd.Command | scirnap/gtf2bed.py:35-36 | `<program> <path> > ` followed by the `.bed` output |
| Gtf2BedCmd.GtfBecomesBed | scirnap/gtf2bed.py:36 | for a `.gtf` input the strip removes exactly that ending |
| Gtf2BedCmd.PositionalStrip | scirnap/gtf2bed.py:36 | the strip is positional: a `.gff3` input gives `<stem>..bed` |
| Gtf2BedCmd.StripGtf | scirnap/gtf2bed.py:36 | a name ending in `_<file>.gtf` is its first part plus `.gtf`, so dropping four characters removes exactly `.gtf` |
| Gtf2BedCmd.StripGff3 | scirnap/gtf2bed.py:36 | dropping four characters from `..._<stem>.gff3` leaves `<stem>.` |
| StringTieCmd.Params | scirnap/stringtie.py:35 | exactly "GTF path", "Param str" and "ctab path" |
| StringTieCmd.SampleStem | scirnap/stringtie.py:43 | the sample stem is a dot-free, separator-free prefix of the file name, followed in it by a dot when shorter |
| StringTieCmd.MakeCtabDir | scirnap/stringtie.py:42-45 | creating `join(ctab, stem)` fails exactly when a directory of that name (trailing `/` ignored) exists, and otherwise adds it to the directories |
| StringTieCmd.Command | scirnap/stringtie.py:38-40 | starts with `-G <gtf> -o <generated name>.gtf -b ` and ends with the ctab directory, two spaces, the path and a space |
| StringTieCmd.SameStemFailsAfterBuild | scirnap/stringtie.py:43-44 | a second build for a file with the same stem fails because the directory exists |
| StringTieCmd.DistinctStemsDistinctDirs | scirnap/stringtie.py:43 | different stems give different directories, an empty stem included |
| StringTieCmd.OtherStemStillBuilds | scirnap/stringtie.py:43-44 | building one sample does not block a sample with another stem |
| StringTieCmd.EmptyStemTargetsCtabPath | scirnap/stringtie.py:43-44 | a file whose name starts with a dot has an empty stem, its directory is the ctab path itself, and the build fails when that exists |
| CutadaptCmd.Validate | scirnap/cutadapt.py:29-32 | a setup exists exactly for mode "s" |
| CutadaptCmd.Params | scirnap/cutadapt.py:37-38 | exactly "MultiQC path", "Param str", "Single or paired" and "Output dir", with the setup's values, in that order |
| CutadaptCmd.SingleEndCommand | scirnap/cutadapt.py:41-42 | `<program> <params> -o <generated name> ` followed by the path |
| CutadaptCmd.PairedEndCommand | scirnap/cutadapt.py:44-47 | never yields a command |
| CutadaptCmd.Command | scirnap/cutadapt.py:49-52 | no setup fails as not configured; a command exactly for mode "s", equal to the single-end one |
| CutadaptCmd.GetQcFiles | scirnap/cutadapt.py:54-68 | unknown metric first, then bad flag, then a missing `Filename` column are errors; otherwise exactly the selected paths (`Selected`), at most one per row |
| CutadaptCmd.Selected | scirnap/cutadapt.py:65-67 | every selected path starts with `data_dir`; `SelectedMembers`, `SelectedAppend` and `SelectedLength` state the rest |
| CutadaptCmd.SelectedLength | scirnap/cutadapt.py:65-67 | no more paths than rows |
| CutadaptCmd.SelectedAppend | scirnap/cutadapt.py:65-67 | selection keeps table order |
| CutadaptCmd.SelectedMembers | scirnap/cutadapt.py:65-67 | a path is selected exactly when some row's metric equals the flag and the path is `data_dir + Filename` |
| Hisat2Cmd.Validate | scirnap/hisat2.py:35-38 | a setup exists exactly for mode "s" |
| Hisat2Cmd.Params | scirnap/hisat2.py:43-44 | the four logged parameters, in order |
| Hisat2Cmd.SingleEndCommand | scirnap/hisat2.py:47-54 | align with `--summary-file <out>_summary.txt -x <idx> -U <path>`, pipe to view, sort to `<out>.sorted.bam` |
| Hisat2Cmd.PairedEndCommand | scirnap/hisat2.py:56-59 | never yields a command |
| Hisat2Cmd.Command | scirnap/hisat2.py:61-64 | no setup fails as not configured; a command exactly for mode "s" |
| Hisat2Cmd.SummaryAndBamSharePrefix | scirnap/hisat2.py:48-54 | the summary file and the sorted BAM come from one generated name |
| Hisat2Cmd.PipelineNamesBothFiles | scirnap/hisat2.py:50-54 | the pipeline text names `<out>_summary.txt` |
| Hisat2Cmd.RateToken | scirnap/hisat2.py:79 | the token is the line's first space-separated piece without its last character: a space-free prefix, empty when the line is empty or starts with a space, and otherwise followed in the line by one character that is not a space and then by a space or the end |
| Hisat2Cmd.SummariseResults | scirnap/hisat2.py:66-85 | the loop over the listing writes exactly every entry's record, in listing order |
| Hisat2Cmd.SummariseEntry | scirnap/hisat2.py:71-85 | the line loop over one entry writes exactly its record: only line 5 of a `summary` file, as name, tab and token; nothing for other entries or shorter files |
| Hisat2Cmd.Record | scirnap/hisat2.py:71-82 | an entry writes something exactly when its name contains `summary` and it has a line at index 5, and then it starts with the name and a tab |
| Hisat2Cmd.Summary | scirnap/hisat2.py:66-85 | the results file is empty exactly when no entry writes a record |
| Hisat2Cmd.SummaryStep | scirnap/hisat2.py:70-85 | one more listed entry appends exactly its record |
| Hisat2Cmd.SummaryAppend | scirnap/hisat2.py:70 | the output of a listing is the outputs of its parts, in order |
| Hisat2Cmd.OnlySummaryFilesCount | scirnap/hisat2.py:71 | entries without `summary` in their name add nothing |
| Hisat2Cmd.RecordOfSummaryFile | scirnap/hisat2.py:74-82 | a summary file with a line at index 5 contributes `name + "\t" + token` |
| Pipeline.Command | scirnap/base.py:86-87 | the one-path tools build exactly when given one path; Pool and featureCounts refuse a single path |
| Pipeline.Generate | scirnap/base.py:86-87 | a build never removes a directory, and only StringTie's adds one; `GenerateOutcome` and `CtabBuild` give the rest |
| Pipeline.GenerateOutcome | scirnap/stringtie.py:38-45 | a build succeeds exactly when the command does and, for StringTie, the ctab directory is new; only StringTie adds a directory |
| Pipeline.CtabBuild | scirnap/stringtie.py:38-45 | a StringTie build succeeds exactly when the sample's ctab directory is new, adds that directory and yields the command naming it; otherwise it fails on that directory |
| Pipeline.ParamLines | scirnap/base.py:72-74 | one `# key: value` record per parameter, in order |
| Pipeline.VersionLines | scirnap/base.py:50-54 | no version record when the probe printed no bytes, exactly one otherwise |
| Pipeline.VersionRecord | scirnap/base.py:54 | the version record holds no newline: `# program version: b`, a quote, the escaped bytes and the same quote, and the escaped text reads back as the probe's bytes; it is not ended by a newline, so the next record continues its line in the log file |
| ByteRepr.QuoteFor | scirnap/base.py:54 | `repr` quotes with `"` exactly when the bytes hold a `'` and no `"`, and with `'` otherwise |
| ByteRepr.Escape | scirnap/base.py:54 | one byte becomes one to four characters, never a newline; a byte written as itself is neither a backslash nor the quote |
| ByteRepr.EscapeAll | scirnap/base.py:54 | the escaped bytes contain no newline |
| ByteRepr.Repr | scirnap/base.py:54 | `b`, the quote, the escaped bytes and the same quote, with no newline |
| ByteRepr.UnescapeOne | scirnap/base.py:54 | reading an escaped byte followed by anything gives that byte first |
| ByteRepr.EscapeRoundTrip | scirnap/base.py:54 | the escaped bytes read back as the bytes |
| ByteRepr.ReprRoundTrip | scirnap/base.py:54 | the text between the quotes of `repr` reads back as the bytes: nothing of the probe's output is lost |
| Pipeline.Exec | scirnap/base.py:76-84 | `exec_cmd` as a step on the state; `BasePipeline.ExecCmd` is proved against it and `UnitAccounting` states its accounting |
| Pipeline.Unit | scirnap/base.py:121-126 | build then execute; `UnitAccounting`, `UnitDone`, `UnitFails`, `UnitCtabExists` and `UnitCtabFresh` state its outcome |
| Pipeline.RunSeq | scirnap/base.py:140-146 | the sequential loop; `SeqAccounting`, `SequentialRecords`, `SequentialFrom` and `BasePipeline.RunSequentially` state what it does |
| Pipeline.RunAll | scirnap/base.py:136-137 | the worker pool; `PoolAccounting`, `PoolOutcome`, `PoolRecords` and `PoolRunsEachFileOnce` state what it does |
| Pipeline.PerFile | scirnap/base.py:128-149 | a completed run leaves the log closed; `ThreadCountClamped`, `NoThreadsSequential` and `SpawnsOnlyWhatItLogs` state the rest |
| Pipeline.Discover | scirnap/base.py:89-97 | with an empty ending every listed name is found; `DiscoverMembers`, `DiscoverAppend` and `DiscoverLength` state the rest |
| Pipeline.Clamp | scirnap/base.py:135 | the clamped count is the smaller of the two |
| Pipeline.BasePipeline.ForBase | scirnap/base.py:33-56 | `output_dir` defaults to `data_dir`; the log is open and holds the version record, if any; one process (the probe) was spawned |
| Pipeline.BasePipeline.ForFastQC | scirnap/fastqc.py:25-28 | defaults `fq` and `FASTQC`; `output_dir` falls back to `data_dir` only when absent; no parameters |
| Pipeline.BasePipeline.ForPool | scirnap/pool.py:26-31 | defaults `.bam` and `BAMPOOL`; the given output directory is used |
| Pipeline.BasePipeline.ForSort | scirnap/sort.py:25-28 | defaults `.bam` and an empty name; the given output directory is used |
| Pipeline.BasePipeline.ForGTF2Bed | scirnap/gtf2bed.py:27-33 | defaults `.gtf` and `GTF2BED`; the given output directory; no parameter records |
| Pipeline.BasePipeline.ForFeatureCounts | scirnap/featurecounts.py:24-32 | its two parameters are logged after the version record |
| Pipeline.BasePipeline.ForStringTie | scirnap/stringtie.py:26-36 | its three parameters are logged after the version record |
| Pipeline.BasePipeline.ForCutadapt | scirnap/cutadapt.py:25-39 | an invalid mode leaves no setup, `data_dir` as output directory and no parameter records |
| Pipeline.BasePipeline.ForHisat2 | scirnap/hisat2.py:31-45 | the same early return as Cutadapt's |
| Pipeline.BasePipeline.AddParamsToLogfile | scirnap/base.py:72-74 | appends the parameter records in order; the first write to a closed log fails |
| Pipeline.BasePipeline.ExecCmd | scirnap/base.py:76-84 | a closed log fails; otherwise one record `cmd\t stamp\n` is appended and one process spawned unless dry |
| Pipeline.BasePipeline.GenCtabStr | scirnap/stringtie.py:42-45 | creates the sample's ctab directory, failing if it exists; other tools have no ctab path |
| Pipeline.BasePipeline.GenerateCmd | scirnap/base.py:86-87 | the object's tool builds its command as `Generate` says, with the same directory effect |
| Pipeline.BasePipeline.GenAndExecCmd | scirnap/base.py:121-126 | build then execute; a failed build logs nothing |
| Pipeline.BasePipeline.RunOnFile | scirnap/base.py:111-119 | one unit for the path, then the log is closed if it succeeded |
| Pipeline.BasePipeline.RunOnFiles | scirnap/base.py:99-109 | one unit for the whole list, then the log is closed if it succeeded |
| Pipeline.BasePipeline.RunPerFile | scirnap/base.py:128-149 | the new state, error and thread count are those `PerFile` specifies: clamp then pool, or the sequential loop |
| Pipeline.BasePipeline.RunSequentially | scirnap/base.py:140-146 | the loop builds and executes unit by unit in list order and stops at the first failure, reaching exactly the state and error of `RunSeq` |
| Pipeline.BasePipeline.PoolMap | scirnap/base.py:136-137 | every unit is run in the workers' order and the first failure is reported |
| Pipeline.BasePipeline.GetFilesInDir | scirnap/base.py:89-97 | the loop returns exactly `Discover`: matching names joined to `data_dir`, in listing order |
| PipelineFacts.UnitAccounting | scirnap/base.py:76-84 | a unit appends at most one record, spawns exactly when it records (not in a dry run), and fails on a closed log |
| PipelineFacts.SeqAccounting | scirnap/base.py:140-146 | the sequential loop only appends records and spawns one process per record (none when dry) |
| PipelineFacts.PoolAccounting | scirnap/base.py:136-137 | the pool keeps the same accounting in any order |
| PipelineFacts.SpawnsOnlyWhatItLogs | scirnap/base.py:128-149 | in either mode, spawned processes equal new records, and a dry run spawns none |
| PipelineFacts.ClosedLogRecordsNothing | scirnap/base.py:76-78 | with the log closed, a run records and spawns nothing and fails if given any unit |
| PipelineFacts.CompletedRunClosesLog | scirnap/base.py:148-149 | a completed run closes the log, so a second run fails without recording |
| PipelineFacts.ThreadCountClamped | scirnap/base.py:129-136 | the count becomes `min(nthreads, units)`; a negative count or an empty list fails before recording; otherwise a pool of at least one worker |
| PipelineFacts.NoThreadsSequential | scirnap/base.py:129-146 | `None` and `0` leave the count alone and run the sequential loop |
| PipelineFacts.SequentialRecords | scirnap/base.py:140-146 | when every command builds, the records are the commands in list order and one process per unit is spawned |
| PipelineFacts.SequentialFrom | scirnap/base.py:141-146 | from any position on, the loop appends the remaining units' commands in order and spawns one process each unless dry |
| PipelineFacts.RecordsAt | scirnap/base.py:136-137 | when every unit builds, the record at position `k` is the command of the `k`-th unit in the workers' order, stamped with the `k`-th timestamp |
| PipelineFacts.RecordsHold | scirnap/base.py:136-137 | every unit whose command builds has its record, with its timestamp, among the records |
| PipelineFacts.FirstError | scirnap/base.py:136-137 | there is no error exactly when every unit's command builds |
| PipelineFacts.PoolOutcome | scirnap/base.py:136-137 | when no unit creates a directory, the pool appends the record of every unit that builds, in the workers' order, whatever the others do, spawns one process per record unless dry, and reports the first error in the workers' order |
| PipelineFacts.PoolRecords | scirnap/base.py:136-137 | when every command builds, the run completes and the records are the commands in the workers' order |
| PipelineFacts.PoolRunsEachFileOnce | scirnap/base.py:135-137 | in pool mode each unit's command is recorded at exactly one position |
| PipelineFacts.PoolGroupsIndependent | scirnap/base.py:129-137 | a Pool run over groups with a pool of workers fails exactly when some group has no output name (an empty group, or a first path missing from a non-empty rename map), and every group whose name is found still has its merge command recorded |
| PipelineFacts.BatchRecorded | scirnap/base.py:99-109 | a batch whose command builds and names every input completes with exactly one new record, which names every input, one process unless dry, and the log closed |
| PipelineFacts.FeatureCountsNamesEveryFile | scirnap/featurecounts.py:34-36 | featureCounts' batch command fails exactly on an empty list and otherwise names every input |
| PipelineFacts.PoolNamesEveryFile | scirnap/pool.py:33-36 | Pool's merge command fails with the name lookup's error and otherwise builds, naming every input |
| PipelineFacts.FeatureCountsBatch | scirnap/base.py:99-109 | the batch logs one line naming every input, or fails on an empty list with nothing logged |
| PipelineFacts.PoolBatch | scirnap/pool.py:33-36 | a merge logs one line naming every input, or fails with the name lookup's error |
| PipelineFacts.UnconfiguredRecordsNothing | scirnap/cutadapt.py:29-32 | an object whose mode was rejected fails on its first unit as not configured, for a path or a list alike, without recording anything |
| PipelineFacts.UnitCtabExists | scirnap/stringtie.py:43-44 | a StringTie unit whose ctab directory exists fails with that directory and changes nothing |
| PipelineFacts.UnitCtabFresh | scirnap/stringtie.py:38-45 | a StringTie unit whose ctab directory is new creates it and appends exactly its command's record |
| PipelineFacts.StringTieSameStemStops | scirnap/stringtie.py:43-44 | two samples with the same stem: the first is recorded, the second fails on the existing directory |
| PipelineFacts.FastQCIgnoresNameAndDate | scirnap/fastqc.py:31 | FastQC's command depends neither on the date nor on the tool name |
| PipelineFacts.DiscoverMembers | scirnap/base.py:92-95 | a path is discovered exactly when it is `join(data_dir, name)` for a listed name containing the ending |
| PipelineFacts.DiscoveredIsPicked | scirnap/base.py:92-95 | every discovered path comes from a listed name containing the ending |
| PipelineFacts.PickedIsDiscovered | scirnap/base.py:92-95 | every listed name containing the ending is discovered, joined to `data_dir` |
| PipelineFacts.DiscoverAppend | scirnap/base.py:92-95 | discovery keeps listing order |
| PipelineFacts.DiscoverLength | scirnap/base.py:92-95 | at most one path per listed name |

## Left out

- Process spawning, the tools' output and exit codes: a spawned process is a counter, and
  the `--version` output is a constructor parameter.
- The clock: the date and the per-record timestamps are parameters; one date serves a whole
  run.
- File I/O: the directory listing, the QC table and the summary files are read in advance
  and passed as values; the log file is a sequence of records plus an open flag (its
  location and any earlier content are not modelled). Creating a ctab directory assumes
  its parent exists. On a Cutadapt object whose mode was rejected, `get_qc_files` would
  fail reading the never-set `multiqc_path`; since the table is passed as a value, this
  case is outside the model.
- Reading the MultiQC report with pandas (`pd.read_csv`): the table is a value with a column
  list and rows as maps; pandas' typing of cells is not modelled.
- Real concurrency: the workers' order is a parameter, records are appended one at a time,
  and every unit runs even when another failed. The pool's chunking, which skips the rest of
  a chunk after a failure, is not modelled.
- PipelineFacts.PoolGroupsIndependent: `pool.map` hands out the units in chunks of
  ⌈n / (4 × workers)⌉, and a failing unit skips the units after it in its chunk. The
  lemma, like the model, runs every unit, so it matches the source when there are at most
  four units per worker (chunks of one). With more, a group that follows a failing group in
  the same chunk is not recorded by the source.
- PipelineFacts.PoolOutcome: records every unit that builds; the same chunking caveat as
  for `PoolGroupsIndependent` applies.
- Pipeline.BasePipeline.PoolMap: runs every unit; the same chunking caveat as for
  `PoolGroupsIndependent` applies.
- Pipeline.BasePipeline.RunPerFile: reports the first failure in the workers' order rather
  than pool.map's first failure in completion order; the two coincide when records are
  appended in completion order.
- The `except` branch of `summarise_results` that moves the read to line 14 is not
  modelled: the string handling it guards cannot fail.
- Console messages (`print_params`, `print_logfile_dir`, `print_program_version`, the
  verbose messages and `SciUtil` output) carry no state and are not modelled; the
  constructor's data-directory existence check only prints.
- The command-line entry point `scirnap/main.py` is not part of this model.
- Paths.SplitPath: Windows drive letters and UNC prefixes (`//server/share`), which
  `ntpath.split` keeps whole in the head, are not modelled; only `/` and `\` separate
  components.
- Pipeline.Command: two wrong-kind arguments build a command in the source without
  raising, and the model reports `WrongArgKind` for them instead. A single path handed to
  Pool or featureCounts is a sequence of characters, so the command is built from its first
  character and its characters joined by spaces. A list handed to FastQC is written into
  the command by its `repr`. For Sort, GTF2Bed, StringTie, Cutadapt and Hisat2, a list
  reaches `ntpath.split` (directly or through `_gen_fname_str`), which raises `TypeError`;
  there `WrongArgKind` stands for that exception.
- StringTieCmd.MakeCtabDir: a directory is identified by its path without trailing `/`;
  other spellings of one directory (`a//b`, `./a`, symbolic links) are not identified,
  and `os.mkdir("")`, which fails, is treated like any new directory.
- CutadaptCmd.Command and Hisat2Cmd.Command: for a validated setup whose mode is not "s"
  (which validation never produces) the model reports `NoCommand`, where the source would
  hand `None` on to `exec_cmd`.
- Pipeline.BasePipeline.ForBase: takes the file ending as a string; the base class's
  default of `None` would fail at the first substring test.

=== FILE: byte_repr.dfy ===
/** Python's `repr` of a `bytes` value, which is what an f-string writes for it:
    `b'...'`, quoted with `"` instead when the bytes hold a `'` and no `"`; a backslash
    and the quote are escaped with a backslash, tab, newline and carriage return as `\t`,
    `\n`, `\r`, any other byte below 0x20 or from 0x7f up as `\x` and two lower-case hex
    digits, and every other byte is written as its character. */
module ByteRepr {
  import opened Results

  /** The quote `repr` chooses. */
  function QuoteFor(b: seq<bv8>): (q: char)
    ensures q == '\'' || q == '"'
    ensures q == '"' <==> 0x27 in b && 0x22 !in b
  {
    if 0x27 in b && 0x22 !in b then '"' else '\''
  }

  /** The hex digit of `0 <= d < 16`, lower case. */
  function HexDigit(d: int): char
    requires 0 <= d < 16
  {
    if d < 10 then ('0' as int + d) as char else ('a' as int + d - 10) as char
  }

  /** The value of a lower-case hex digit. */
  function HexValue(c: char): (r: Option<int>)
    ensures r.Some? ==> 0 <= r.value < 16
  {
    if '0' <= c <= '9' then Some(c as int - '0' as int)
    else if 'a' <= c <= 'f' then Some(c as int - 'a' as int + 10)
    else None
  }

  /** How one byte is written between the quotes `q`. */
  function Escape(c: bv8, q: char): (r: string)
    requires q == '\'' || q == '"'
    ensures 1 <= |r| <= 4 && '\n' !in r
    ensures |r| == 1 ==> r[0] != '\\' && r[0] != q && r[0] as int == c as int
  {
    var n := c as int;
    if n == q as int || n == 0x5C then ['\\', n as char]
    else if n == 0x09 then "\\t"
    else if n == 0x0A then "\\n"
    else if n == 0x0D then "\\r"
    else if n < 0x20 || n >= 0x7F then ['\\', 'x', HexDigit(n / 16), HexDigit(n % 16)]
    else [n as char]
  }

  /** The escaped bytes, in order. */
  function EscapeAll(b: seq<bv8>, q: char): (r: string)
    requires q == '\'' || q == '"'
    ensures '\n' !in r
    decreases |b|
  {
    if b == [] then "" else Escape(b[0], q) + EscapeAll(b[1..], q)
  }

  /** `repr(b)` */
  function Repr(b: seq<bv8>): (r: string)
    ensures |r| >= 3 && r[0] == 'b' && r[1] == QuoteFor(b) && r[|r| - 1] == QuoteFor(b)
    ensures '\n' !in r
  {
    var q := QuoteFor(b);
    ['b', q] + EscapeAll(b, q) + [q]
  }

  function Prepend(c: bv8, rest: Option<seq<bv8>>): Option<seq<bv8>> {
    if rest.Some? then Some([c] + rest.value) else None
  }

  /** Reading an escaped text back as bytes; `None` for text `repr` never writes. */
  function Unescape(s: string): Option<seq<bv8>>
    decreases |s|
  {
    if s == [] then Some([])
    else if s[0] == '\\' && |s| >= 2 then
      var e := s[1];
      if e == 'x' && |s| >= 4 && HexValue(s[2]).Some? && HexValue(s[3]).Some? then
        Prepend((16 * HexValue(s[2]).value + HexValue(s[3]).value) as bv8, Unescape(s[4..]))
      else if e == 't' then Prepend(0x09, Unescape(s[2..]))
      else if e == 'n' then Prepend(0x0A, Unescape(s[2..]))
      else if e == 'r' then Prepend(0x0D, Unescape(s[2..]))
      else if e as int < 256 then Prepend(e as int as bv8, Unescape(s[2..]))
      else None
    else if s[0] != '\\' && s[0] as int < 256 then Prepend(s[0] as int as bv8, Unescape(s[1..]))
    else None
  }

  lemma HexRoundTrip(d: int)
    requires 0 <= d < 16
    ensures HexValue(HexDigit(d)) == Some(d)
  {
  }

  /** Reading one escaped byte, followed by anything, gives that byte first. */
  lemma UnescapeOne(c: bv8, q: char, t: string)
    requires q == '\'' || q == '"'
    ensures Unescape(Escape(c, q) + t) == Prepend(c, Unescape(t))
  {
    var n := c as int;
    if n == q as int || n == 0x5C {
      UnescapePair(n as char, t);
    } else if n == 0x09 || n == 0x0A || n == 0x0D {
      UnescapePair(if n == 0x09 then 't' else if n == 0x0A then 'n' else 'r', t);
    } else if n < 0x20 || n >= 0x7F {
      UnescapeHex(c, t);
    } else {
      var s := [n as char] + t;
      assert s[0] == n as char && s[1..] == t;
    }
  }

  /** A backslash and one more character are read as one byte. */
  lemma UnescapePair(e: char, t: string)
    requires e != 'x' && e as int < 256
    ensures Unescape(['\\', e] + t) ==
            Prepend(if e == 't' then 0x09 else if e == 'n' then 0x0A else if e == 'r' then 0x0D
                    else e as int as bv8, Unescape(t))
  {
    var s := ['\\', e] + t;
    assert s[0] == '\\' && s[1] == e && s[2..] == t;
  }

  /** A `\xhh` escape is read as the byte it spells. */
  lemma UnescapeHex(c: bv8, t: string)
    ensures Unescape(['\\', 'x', HexDigit(c as int / 16), HexDigit(c as int % 16)] + t) == Prepend(c, Unescape(t))
  {
    HexByte(c);
    UnescapeHexDigits(HexDigit(c as int / 16), HexDigit(c as int % 16), t);
  }

  /** The two hex digits of a byte read back as that byte. */
  lemma HexByte(c: bv8)
    ensures HexValue(HexDigit(c as int / 16)) == Some(c as int / 16)
    ensures HexValue(HexDigit(c as int % 16)) == Some(c as int % 16)
    ensures (16 * (c as int / 16) + c as int % 16) as bv8 == c
  {
    HexRoundTrip(c as int / 16);
    HexRoundTrip(c as int % 16);
  }

  /** `\x` and two hex digits are read as one byte. */
  lemma UnescapeHexDigits(hi: char, lo: char, t: string)
    requires HexValue(hi).Some? && HexValue(lo).Some?
    ensures Unescape(['\\', 'x', hi, lo] + t)
            == Prepend((16 * HexValue(hi).value + HexValue(lo).value) as bv8, Unescape(t))
  {
    var s := ['\\', 'x', hi, lo] + t;
    assert s[0] == '\\' && s[1] == 'x' && s[2] == hi && s[3] == lo && s[4..] == t;
  }

  /** The escaped body reads back as the bytes it was written from. */
  lemma {:induction false} EscapeRoundTrip(b: seq<bv8>, q: char)
    requires q == '\'' || q == '"'
    ensures Unescape(EscapeAll(b, q)) == Some(b)
    decreases |b|
  {
    if b != [] {
      UnescapeOne(b[0], q, EscapeAll(b[1..], q));
      EscapeRoundTrip(b[1..], q);
      assert [b[0]] + b[1..] == b;
    }
  }

  /** `repr` loses nothing: the text between its quotes reads back as the bytes. */
  lemma ReprRoundTrip(b: seq<bv8>)
    ensures var r := Repr(b); Unescape(r[2..|r| - 1]) == Some(b)
  {
    var q := QuoteFor(b);
    var r := Repr(b);
    assert r[2..|r| - 1] == EscapeAll(b, q);
    EscapeRoundTrip(b, q);
  }
}

=== FILE: cutadapt.dfy ===
/** `Cutadapt` (scirnap/cutadapt.py): adapter trimming, single-end only, plus a filter that
    picks files out of a MultiQC quality report. The constructor's mode check is written
    `s_or_p not in ['s' or 'p']`; the list evaluates to `['s']`, so only "s" is accepted. */
module CutadaptCmd {
  import opened Results
  import opened Text
  import Paths

  const DefaultEnding := ".fq.gz"
  const DefaultName := "CUTADAPT"

  /** The list the mode is checked against, as the source evaluates it. */
  const AcceptedModes: seq<string> := ["s"]

  /** The flags the quality report may carry. */
  const Flags: seq<string> := ["pass", "warn", "fail"]

  /** What a successfully validated constructor stores; absent when it returned early. */
  datatype Setup = Setup(sOrP: string, multiqcPath: string, paramStr: string)

  /** The constructor's validation: a setup only for an accepted mode. */
  function Validate(sOrP: string, multiqcPath: string, paramStr: string): (r: Option<Setup>)
    ensures r.Some? <==> sOrP == "s"
    ensures r.Some? ==> r.value == Setup(sOrP, multiqcPath, paramStr)
  {
    if sOrP in AcceptedModes then Some(Setup(sOrP, multiqcPath, paramStr)) else None
  }

  /** The parameters it records in the log, in order, once validated. */
  function Params(setup: Setup, outputDir: string): (ps: seq<(string, string)>)
    ensures |ps| == 4 && ps[0] == ("MultiQC path", setup.multiqcPath) && ps[1] == ("Param str", setup.paramStr)
    ensures ps[2] == ("Single or paired", setup.sOrP) && ps[3] == ("Output dir", outputDir)
  {
    [("MultiQC path", setup.multiqcPath), ("Param str", setup.paramStr), ("Single or paired", setup.sOrP),
     ("Output dir", outputDir)]
  }

  /** `generate_se_cmd`: `<program> <params> -o <output> <path>`. */
  function SingleEndCommand(program: string, paramStr: string, outputDir: string, name: string, date: string,
                            path: string): (r: string)
    ensures program + " " + paramStr + " -o " + Paths.GenFnameStr(outputDir, name, date, path) + " " <= r
    ensures EndsWith(r, path)
    ensures |r| == |program + " " + paramStr + " -o " + Paths.GenFnameStr(outputDir, name, date, path) + " "| + |path|
  {
    var pre := program + " " + paramStr + " -o " + Paths.GenFnameStr(outputDir, name, date, path) + " ";
    assert (pre + path)[|pre|..] == path;
    pre + path
  }

  /** `generate_pe_cmd`: paired-end trimming is not implemented; it never yields a command. */
  function PairedEndCommand(path: string): (r: Result<string>)
    ensures r == Err(NoCommand)
  {
    Err(NoCommand)
  }

  /** `generate_cmd`: the single-end command for mode "s" and nothing for any other mode;
      reading the mode of a constructor that returned early fails. */
  function Command(program: string, setup: Option<Setup>, outputDir: string, name: string, date: string,
                   path: string): (r: Result<string>)
    ensures setup.None? <==> r == Err(NotConfigured)
    ensures r.Ok? <==> setup.Some? && setup.value.sOrP == "s"
    ensures r.Ok? ==> r.value == SingleEndCommand(program, setup.value.paramStr, outputDir, name, date, path)
  {
    match setup
    case None => Err(NotConfigured)
    case Some(s) =>
      if s.sOrP == "s" then Ok(SingleEndCommand(program, s.paramStr, outputDir, name, date, path))
      else Err(NoCommand)
  }

  // ---- the quality-report filter ----

  /** A tab-separated MultiQC report once read: its column names and one row per file. */
  datatype QcTable = QcTable(columns: seq<string>, rows: seq<map<string, string>>)

  /** A table is rectangular: every row has a cell in every column. */
  predicate Rectangular(t: QcTable) {
    forall i, c :: 0 <= i < |t.rows| && c in t.columns ==> c in t.rows[i]
  }

  /** The rows whose `metric` cell equals `flag`, as `data_dir + Filename` (no separator is
      added), in table order. */
  function Selected(dataDir: string, rows: seq<map<string, string>>, metric: string, flag: string): (r: seq<string>)
    ensures forall k :: 0 <= k < |r| ==> dataDir <= r[k]
    decreases |rows|
  {
    if rows == [] then []
    else
      var first := rows[0];
      var rest := Selected(dataDir, rows[1..], metric, flag);
      if metric in first && first[metric] == flag && "Filename" in first
      then [dataDir + first["Filename"]] + rest
      else rest
  }

  /** `get_qc_files`: an unknown metric is reported before a bad flag; a report without a
      `Filename` column fails on the lookup; otherwise the selected files. */
  function GetQcFiles(dataDir: string, table: QcTable, metric: string, flag: string): (r: Result<seq<string>>)
    requires Rectangular(table)
    ensures metric !in table.columns ==> r == Err(UnknownMetric(metric))
    ensures metric in table.columns && flag !in Flags ==> r == Err(BadFlag(flag))
    ensures metric in table.columns && flag in Flags && "Filename" !in table.columns ==> r == Err(MissingKey("Filename"))
    ensures r.Ok? <==> metric in table.columns && flag in Flags && "Filename" in table.columns
    ensures r.Ok? ==> r.value == Selected(dataDir, table.rows, metric, flag) && |r.value| <= |table.rows|
  {
    if metric !in table.columns then Err(UnknownMetric(metric))
    else if flag !in Flags then Err(BadFlag(flag))
    else if "Filename" !in table.columns then Err(MissingKey("Filename"))
    else
      SelectedLength(dataDir, table.rows, metric, flag);
      Ok(Selected(dataDir, table.rows, metric, flag))
  }

  lemma {:induction false} SelectedLength(dataDir: string, rows: seq<map<string, string>>, metric: string, flag: string)
    ensures |Selected(dataDir, rows, metric, flag)| <= |rows|
    decreases |rows|
  {
    if rows != [] {
      SelectedLength(dataDir, rows[1..], metric, flag);
    }
  }

  /** Selection keeps table order: the rows of two reports stacked select the first
      report's files followed by the second's. */
  lemma {:induction false} SelectedAppend(dataDir: string, a: seq<map<string, string>>, b: seq<map<string, string>>,
                                          metric: string, flag: string)
    ensures Selected(dataDir, a + b, metric, flag) == Selected(dataDir, a, metric, flag) + Selected(dataDir, b, metric, flag)
    decreases |a|
  {
    if a != [] {
      assert (a + b)[1..] == a[1..] + b;
      SelectedAppend(dataDir, a[1..], b, metric, flag);
    } else {
      assert a + b == b;
    }
  }

  /** Exactly the matching rows are selected. */
  lemma {:induction false} SelectedMembers(dataDir: string, rows: seq<map<string, string>>, metric: string,
                                           flag: string, p: string)
    requires forall i :: 0 <= i < |rows| ==> "Filename" in rows[i]
    ensures p in Selected(dataDir, rows, metric, flag) <==>
      exists i :: 0 <= i < |rows| && metric in rows[i] && rows[i][metric] == flag && p == dataDir + rows[i]["Filename"]
    decreases |rows|
  {
    if rows != [] {
      SelectedMembers(dataDir, rows[1..], metric, flag, p);
      if p in Selected(dataDir, rows[1..], metric, flag) {
        var i :| 0 <= i < |rows[1..]| && metric in rows[1..][i] && rows[1..][i][metric] == flag
                 && p == dataDir + rows[1..][i]["Filename"];
        assert rows[i + 1] == rows[1..][i];
      }
      if exists i :: 0 <= i < |rows| && metric in rows[i] && rows[i][metric] == flag && p == dataDir + rows[i]["Filename"] {
        var i :| 0 <= i < |rows| && metric in rows[i] && rows[i][metric] == flag && p == dataDir + rows[i]["Filename"];
        if i > 0 {
          assert rows[1..][i - 1] == rows[i];
        }
      }
    }
  }
}

=== FILE: fastqc.dfy ===
/** `FastQC` (scirnap/fastqc.py): quality control of read files. */
module FastQCCmd {
  import opened Text

  /** Matched as a substring of the file name, so `reads.fq.gz` is found too. */
  const DefaultEnding := "fq"
  const DefaultName := "FASTQC"

  /** `FastQC.generate_cmd`: `<program> -o <output_dir> <path>`. */
  function Command(program: string, outputDir: string, path: string): (r: string)
    ensures program + " -o " + outputDir + " " <= r
    ensures EndsWith(r, path)
    ensures |r| == |program + " -o " + outputDir + " "| + |path|
  {
    var pre := program + " -o " + outputDir + " ";
    assert (pre + path)[|pre|..] == path;
    pre + path
  }
}

=== FILE: featurecounts.dfy ===
/** `FeatureCounts` (scirnap/featurecounts.py): counts reads per feature over every
    alignment file at once, in a single command. */
module FeatureCountsCmd {
  import opened Results
  import opened Text
  import Paths

  const DefaultEnding := ".bam"
  const DefaultName := "FEATURECOUNTS"

  /** The parameters it records in the log at construction, in order. */
  function Params(gtfPath: string, paramStr: string): (ps: seq<(string, string)>)
    ensures |ps| == 2 && ps[0] == ("GTF path", gtfPath) && ps[1] == ("Param str", paramStr)
  {
    [("GTF path", gtfPath), ("Param str", paramStr)]
  }

  /** The counts table, named after the first file only. */
  function CountsPath(outputDir: string, name: string, date: string, first: string): string {
    Paths.GenFnameStr(outputDir, name, date, first) + ".txt"
  }

  /** `FeatureCounts.generate_cmd`:
      `<program> <params> -a <gtf> -o <counts table> <every file, space-joined>`;
      an empty list has no first file. */
  function Command(program: string, paramStr: string, gtfPath: string, outputDir: string, name: string,
                   date: string, files: seq<string>): (r: Result<string>)
    ensures files == [] <==> r == Err(EmptyInput)
    ensures r.Ok? ==>
      var pre := program + " " + paramStr + " -a " + gtfPath + " -o " + CountsPath(outputDir, name, date, files[0]) + " ";
      pre <= r.value && EndsWith(r.value, JoinSpace(files)) && |r.value| == |pre| + |JoinSpace(files)|
  {
    if files == [] then Err(EmptyInput)
    else
      var pre := program + " " + paramStr + " -a " + gtfPath + " -o " + CountsPath(outputDir, name, date, files[0]) + " ";
      assert (pre + JoinSpace(files))[|pre|..] == JoinSpace(files);
      Ok(pre + JoinSpace(files))
  }

  /** Every input file is named in the command. */
  lemma {:induction false} CommandNamesEveryFile(program: string, paramStr: string, gtfPath: string, outputDir: string,
                                                 name: string, date: string, files: seq<string>, i: nat)
    requires i < |files|
    ensures Command(program, paramStr, gtfPath, outputDir, name, date, files).Ok?
    ensures Contains(Command(program, paramStr, gtfPath, outputDir, name, date, files).value, files[i])
  {
    var pre := program + " " + paramStr + " -a " + gtfPath + " -o " + CountsPath(outputDir, name, date, files[0]) + " ";
    JoinContains(files, i, ' ');
    ContainsSuffix(pre, JoinSpace(files), files[i]);
  }

  /** A non-empty list gives a command naming all of its files. */
  lemma CommandNamesAll(program: string, paramStr: string, gtfPath: string, outputDir: string,
                        name: string, date: string, files: seq<string>)
    requires files != []
    ensures Command(program, paramStr, gtfPath, outputDir, name, date, files).Ok?
    ensures forall i :: 0 <= i < |files| ==>
              Contains(Command(program, paramStr, gtfPath, outputDir, name, date, files).value, files[i])
  {
    forall i | 0 <= i < |files|
      ensures Contains(Command(program, paramStr, gtfPath, outputDir, name, date, files).value, files[i])
    {
      CommandNamesEveryFile(program, paramStr, gtfPath, outputDir, name, date, files, i);
    }
  }

  /** Lists that start with the same file write the same counts table. */
  lemma SameFirstSameTable(program: string, paramStr: string, gtfPath: string, outputDir: string, name: string,
                           date: string, a: seq<string>, b: seq<string>)
    requires a != [] && b != [] && a[0] == b[0]
    ensures var ra := Command(program, paramStr, gtfPath, outputDir, name, date, a);
            var rb := Command(program, paramStr, gtfPath, outputDir, name, date, b);
            ra.value[..|ra.value| - |JoinSpace(a)|] == rb.value[..|rb.value| - |JoinSpace(b)|]
  {
    var pre := program + " " + paramStr + " -a " + gtfPath + " -o " + CountsPath(outputDir, name, date, a[0]) + " ";
    assert (pre + JoinSpace(a))[..|pre|] == pre;
    assert (pre + JoinSpace(b))[..|pre|] == pre;
  }
}

=== FILE: gtf2bed.dfy ===
/** `GTF2Bed` (scirnap/gtf2bed.py): converts an annotation file to BED by redirecting the
    converter's output. The output name drops the last four characters of the generated
    name by position, whatever they are. */
module Gtf2BedCmd {
  import opened Text
  import Paths

  const DefaultEnding := ".gtf"
  const DefaultName := "GTF2BED"

  /** It records no parameters. */
  function Params(): seq<(string, string)> {
    []
  }

  /** `_gen_fname_str(path)[:-4] + '.bed'` */
  function BedPath(outputDir: string, name: string, date: string, path: string): (r: string)
    ensures EndsWith(r, ".bed")
    ensures var g := Paths.GenFnameStr(outputDir, name, date, path);
            r[..|r| - 4] <= g && |r| == (if |g| >= 4 then |g| else 4)
  {
    var g := Paths.GenFnameStr(outputDir, name, date, path);
    var r := DropLast(g, 4) + ".bed";
    assert r[|r| - 4..] == ".bed";
    assert r[..|r| - 4] == DropLast(g, 4);
    r
  }

  /** `GTF2Bed.generate_cmd`: `<program> <path> > <bed path>`. */
  function Command(program: string, outputDir: string, name: string, date: string, path: string): (r: string)
    ensures program + " " + path + " > " <= r
    ensures EndsWith(r, BedPath(outputDir, name, date, path))
    ensures |r| == |program + " " + path + " > "| + |BedPath(outputDir, name, date, path)|
  {
    var pre := program + " " + path + " > ";
    var bed := BedPath(outputDir, name, date, path);
    assert (pre + bed)[|pre|..] == bed;
    pre + bed
  }

  /** For an input whose basename ends in `.gtf` the strip replaces exactly that ending:
      the BED file is the generated name with `.gtf` turned into `.bed`. */
  lemma GtfBecomesBed(outputDir: string, name: string, date: string, path: string)
    requires EndsWith(Paths.GetFilename(path), ".gtf")
    ensures exists base :: Paths.GenFnameStr(outputDir, name, date, path) == base + ".gtf"
                           && BedPath(outputDir, name, date, path) == base + ".bed"
  {
    var g := Paths.GenFnameStr(outputDir, name, date, path);
    StripGtf(g, Paths.GetFilename(path));
    assert g == DropLast(g, 4) + ".gtf";
  }

  lemma StripGtf(g: string, f: string)
    requires EndsWith(g, "_" + f) && EndsWith(f, ".gtf")
    ensures g == DropLast(g, 4) + ".gtf"
  {
    assert g[|g| - |"_" + f|..] == "_" + f;
    assert g[|g| - 4..] == ".gtf" by {
      assert ("_" + f)[|"_" + f| - 4..] == f[|f| - 4..];
    }
  }

  /** The strip is positional: a `.gff3` file loses `gff3` and keeps its dot. */
  lemma PositionalStrip(outputDir: string, name: string, date: string, path: string, stem: string)
    requires Paths.GetFilename(path) == stem + ".gff3"
    ensures EndsWith(BedPath(outputDir, name, date, path), stem + "..bed")
  {
    var g := Paths.GenFnameStr(outputDir, name, date, path);
    assert EndsWith(g, "_" + (stem + ".gff3"));
    StripGff3(g, stem);
  }

  lemma StripGff3(g: string, stem: string)
    requires EndsWith(g, "_" + (stem + ".gff3"))
    ensures EndsWith(DropLast(g, 4) + ".bed", stem + "..bed")
  {
    var f := "_" + (stem + ".gff3");
    assert g[|g| - |f|..] == f;
    var cut := g[..|g| - 4];
    assert cut[|cut| - |stem| - 1..] == stem + "." by {
      assert cut[|cut| - |stem| - 1..] == g[|g| - |f|..][1..|stem| + 2];
      assert f[1..|stem| + 2] == stem + ".";
    }
    var r := cut + ".bed";
    assert r[|r| - |stem + "..bed"|..] == cut[|cut| - |stem| - 1..] + ".bed";
  }
}

=== FILE: hisat2.dfy ===
/** `Hisat2` (scirnap/hisat2.py): aligns single-end reads and pipes the alignment through
    `samtools view` and `samtools sort`; `summarise_results` collects the alignment rate
    from each summary file. The mode check has the same `['s' or 'p']` list as Cutadapt's,
    so only "s" is accepted. */
module Hisat2Cmd {
  import opened Results
  import opened Text
  import Paths

  const DefaultEnding := ".fq.gz"
  const DefaultName := "HISAT2"

  /** The list the mode is checked against, as the source evaluates it. */
  const AcceptedModes: seq<string> := ["s"]

  /** The line (counted from 0) of a summary file that holds the overall alignment rate. */
  const RateLine := 5

  /** What a successfully validated constructor stores; absent when it returned early. */
  datatype Setup = Setup(sOrP: string, paramStr: string, annotationIdxDir: string)

  function Validate(sOrP: string, paramStr: string, annotationIdxDir: string): (r: Option<Setup>)
    ensures r.Some? <==> sOrP == "s"
    ensures r.Some? ==> r.value == Setup(sOrP, paramStr, annotationIdxDir)
  {
    if sOrP in AcceptedModes then Some(Setup(sOrP, paramStr, annotationIdxDir)) else None
  }

  /** The parameters it records in the log, in order, once validated. */
  function Params(setup: Setup, outputDir: string): (ps: seq<(string, string)>)
    ensures |ps| == 4 && ps[0] == ("Param str", setup.paramStr) && ps[1] == ("Single or paired", setup.sOrP)
    ensures ps[2] == ("Output dir", outputDir) && ps[3] == ("Annotation index", setup.annotationIdxDir)
  {
    [("Param str", setup.paramStr), ("Single or paired", setup.sOrP), ("Output dir", outputDir),
     ("Annotation index", setup.annotationIdxDir)]
  }

  /** The alignment half of the single-end pipeline, up to the first pipe. */
  function AlignStep(program: string, paramStr: string, idx: string, out: string, path: string): string {
    program + " " + paramStr + " --summary-file " + out + "_summary.txt -x " + idx + " -U " + path
  }

  /** `generate_se_cmd`: align, convert to BAM, sort. The summary file and the sorted BAM
      share one prefix, from a single `_gen_fname_str` call. */
  function SingleEndCommand(program: string, paramStr: string, idx: string, outputDir: string, name: string,
                            date: string, path: string): (r: string)
    ensures var out := Paths.GenFnameStr(outputDir, name, date, path);
      var pre := AlignStep(program, paramStr, idx, out, path) + " | samtools view -bS | samtools sort -o ";
      pre <= r && EndsWith(r, out + ".sorted.bam") && |r| == |pre| + |out + ".sorted.bam"|
  {
    var out := Paths.GenFnameStr(outputDir, name, date, path);
    var pre := AlignStep(program, paramStr, idx, out, path) + " | samtools view -bS | samtools sort -o ";
    assert (pre + (out + ".sorted.bam"))[|pre|..] == out + ".sorted.bam";
    pre + (out + ".sorted.bam")
  }

  /** `generate_pe_cmd`: not implemented; it never yields a command. */
  function PairedEndCommand(path: string): (r: Result<string>)
    ensures r == Err(NoCommand)
  {
    Err(NoCommand)
  }

  /** `generate_cmd`: the single-end command for mode "s" and nothing otherwise; reading the
      mode of a constructor that returned early fails. */
  function Command(program: string, setup: Option<Setup>, outputDir: string, name: string, date: string,
                   path: string): (r: Result<string>)
    ensures setup.None? <==> r == Err(NotConfigured)
    ensures r.Ok? <==> setup.Some? && setup.value.sOrP == "s"
    ensures r.Ok? ==> r.value == SingleEndCommand(program, setup.value.paramStr, setup.value.annotationIdxDir,
                                                  outputDir, name, date, path)
  {
    match setup
    case None => Err(NotConfigured)
    case Some(s) =>
      if s.sOrP == "s" then Ok(SingleEndCommand(program, s.paramStr, s.annotationIdxDir, outputDir, name, date, path))
      else Err(NoCommand)
  }

  /** The summary file and the sorted BAM of one command are named from the same prefix. */
  lemma SummaryAndBamSharePrefix(program: string, paramStr: string, idx: string, outputDir: string, name: string,
                                 date: string, path: string)
    ensures var r := SingleEndCommand(program, paramStr, idx, outputDir, name, date, path);
            var out := Paths.GenFnameStr(outputDir, name, date, path);
            Contains(r, out + "_summary.txt") && EndsWith(r, out + ".sorted.bam")
  {
    var out := Paths.GenFnameStr(outputDir, name, date, path);
    PipelineNamesBothFiles(program, paramStr, idx, out, path);
  }

  lemma PipelineNamesBothFiles(program: string, paramStr: string, idx: string, out: string, path: string)
    ensures var r := AlignStep(program, paramStr, idx, out, path) + " | samtools view -bS | samtools sort -o "
                     + (out + ".sorted.bam");
            Contains(r, out + "_summary.txt")
  {
    var a := program + " " + paramStr + " --summary-file ";
    var m := out + "_summary.txt";
    var c := " -x " + idx + " -U " + path;
    var d := " | samtools view -bS | samtools sort -o " + (out + ".sorted.bam");
    var s1 := " | samtools view -bS | samtools sort -o ";
    var tail := out + ".sorted.bam";
    assert AlignStep(program, paramStr, idx, out, path) == a + m + c;
    assert (a + m + c) + s1 + tail == a + m + (c + d);
    ContainsMiddle(a, m, c + d);
  }

  // ---- summarise_results ----

  /** An entry of the output directory, with the lines a read of it yields (each with its
      line terminator, as Python iterates a file). */
  datatype Entry = Entry(name: string, lines: seq<string>)

  /** `line.split(' ')[0][:-1]`: the first space-separated token without its last character. */
  function RateToken(line: string): (r: string)
    ensures r <= line && ' ' !in r
    ensures line == [] || line[0] == ' ' ==> r == ""
    ensures line != [] && line[0] != ' ' ==>
              && |r| < |line| && line[|r|] != ' '
              && (|r| + 1 == |line| || line[|r| + 1] == ' ')
  {
    var p := FirstPiece(line, ' ');
    assert p != [] ==> p[0] == line[0] && p[|p| - 1] == line[|p| - 1];
    DropLast(p, 1)
  }

  /** What one entry contributes: nothing unless its name contains `summary` and it has a
      line at index 5; then `<name>\t<token>`, with no newline after it. */
  function Record(e: Entry): (r: string)
    ensures r != "" <==> Contains(e.name, "summary") && |e.lines| > RateLine
    ensures r != "" ==> e.name + "\t" <= r
  {
    if Contains(e.name, "summary") && |e.lines| > RateLine then RecordLine(e.name, e.lines[RateLine]) else ""
  }

  /** `filename + "\t" + token` */
  function RecordLine(name: string, line: string): string {
    name + "\t" + RateToken(line)
  }

  /** The text appended to the results file: every entry's record, in listing order. */
  function Summary(entries: seq<Entry>): (r: string)
    ensures r == "" <==> forall i :: 0 <= i < |entries| ==> Record(entries[i]) == ""
    decreases |entries|
  {
    if entries == [] then "" else Record(entries[0]) + Summary(entries[1..])
  }

  /** `summarise_results` over a directory listing read in advance: the outer loop over
      the listed names. Returns the text written to the results file. */
  method SummariseResults(entries: seq<Entry>) returns (out: string)
    ensures out == Summary(entries)
  {
    out := "";
    var i := 0;
    while i < |entries|
      invariant 0 <= i <= |entries|
      invariant out == Summary(entries[..i])
    {
      var written := SummariseEntry(entries[i]);
      out := out + written;
      SummaryStep(entries, i);
      i := i + 1;
    }
    assert entries[..i] == entries;
  }

  /** One turn of the outer loop: a name containing `summary` is read line by line,
      counting with `line_cnt` against `end`, and only the line at index 5 is written, as
      the name, a tab and its token; any other entry writes nothing. */
  method SummariseEntry(entry: Entry) returns (written: string)
    ensures written == Record(entry)
    ensures !Contains(entry.name, "summary") || |entry.lines| <= RateLine ==> written == ""
  {
    written := "";
    if Contains(entry.name, "summary") {
      var lineCnt := 0;
      var end := RateLine;
      var j := 0;
      while j < |entry.lines|
        invariant 0 <= j <= |entry.lines| && lineCnt == j && end == RateLine
        invariant written == if j > RateLine then RecordLine(entry.name, entry.lines[RateLine]) else ""
      {
        if lineCnt == end {
          written := written + RecordLine(entry.name, entry.lines[j]);
        }
        lineCnt := lineCnt + 1;
        j := j + 1;
      }
    }
  }

  /** One more entry of the listing appends its record. */
  lemma SummaryStep(entries: seq<Entry>, i: nat)
    requires i < |entries|
    ensures Summary(entries[..i + 1]) == Summary(entries[..i]) + Record(entries[i])
  {
    var e := entries[i];
    assert entries[..i + 1] == entries[..i] + [e];
    SummaryAppend(entries[..i], [e]);
    SummarySingle(e);
  }

  lemma SummarySingle(e: Entry)
    ensures Summary([e]) == Record(e)
  {
    assert [e][1..] == [];
    assert Record(e) + "" == Record(e);
  }

  /** Order of the listing is kept: two listings read one after the other give their
      summaries one after the other. */
  lemma {:induction false} SummaryAppend(a: seq<Entry>, b: seq<Entry>)
    ensures Summary(a + b) == Summary(a) + Summary(b)
    decreases |a|
  {
    if a != [] {
      assert (a + b)[1..] == a[1..] + b;
      SummaryAppend(a[1..], b);
    } else {
      assert a + b == b;
    }
  }

  /** Entries whose names do not contain `summary` are never read: they add nothing. */
  lemma {:induction false} OnlySummaryFilesCount(entries: seq<Entry>)
    requires forall k :: 0 <= k < |entries| ==> !Contains(entries[k].name, "summary")
    ensures Summary(entries) == ""
    decreases |entries|
  {
    if entries != [] {
      OnlySummaryFilesCount(entries[1..]);
    }
  }

  /** A summary file with a line at index 5 contributes its name, a tab and the token. */
  lemma RecordOfSummaryFile(name: string, lines: seq<string>)
    requires Contains(name, "summary") && |lines| > RateLine
    ensures Record(Entry(name, lines)) == name + "\t" + RateToken(lines[5])
  {
  }
}

=== FILE: paths.dfy ===
/** The path helpers of `BasePipeline` (scirnap/base.py): `os.path.join` as it behaves on
    POSIX, `_get_filename` (the last component of a path, with either `/` or `\` as the
    separator) and `_gen_fname_str` (the name of a tool's output file). The run date is a
    parameter: the original reads the clock. */
module Paths {
  import opened Text

  /** Either separator that `ntpath` recognises. */
  predicate IsSep(ch: char) {
    ch == '/' || ch == '\\'
  }

  predicate NoSep(s: string) {
    forall k :: 0 <= k < |s| ==> !IsSep(s[k])
  }

  /** `os.path.join(a, b)` on POSIX: an absolute `b` replaces `a`; otherwise a `/` is put
      between the two unless `a` is empty or already ends in one. */
  function Join(a: string, b: string): (r: string)
    ensures EndsWith(r, b)
    ensures (b == [] || b[0] != '/') ==> a <= r
    ensures (b != [] && b[0] == '/') ==> r == b
  {
    if b != [] && b[0] == '/' then b
    else if a == [] || a[|a| - 1] == '/' then a + b
    else a + "/" + b
  }

  /** The text after the last separator of `p` (all of `p` if it has none). */
  function Tail(p: string): (r: string)
    ensures |r| <= |p| && NoSep(r) && r == p[|p| - |r|..]
    decreases |p|
  {
    if p == [] || IsSep(p[|p| - 1]) then ""
    else
      var init := p[..|p| - 1];
      var t := Tail(init);
      assert p[|p| - |t| - 1..] == init[|init| - |t|..] + [p[|p| - 1]];
      t + [p[|p| - 1]]
  }

  /** `p` with its trailing separators removed. */
  function RStripSeps(p: string): (r: string)
    ensures r <= p
    ensures r == [] || !IsSep(r[|r| - 1])
    ensures forall k :: |r| <= k < |p| ==> IsSep(p[k])
    decreases |p|
  {
    if p != [] && IsSep(p[|p| - 1]) then RStripSeps(p[..|p| - 1]) else p
  }

  /** The directory a POSIX path names, as `os.mkdir` looks it up: trailing `/` do not
      count, except that a path made only of `/` names the root. */
  function DirKey(d: string): (r: string)
    ensures r <= d && (r == [] <==> d == [])
    ensures forall k :: |r| <= k < |d| ==> d[k] == '/'
    ensures r == [] || r == "/" || r[|r| - 1] != '/'
    decreases |d|
  {
    if |d| >= 2 && d[|d| - 1] == '/' then DirKey(d[..|d| - 1]) else d
  }

  /** A trailing `/` names the same directory. */
  lemma DirKeySlash(d: string)
    requires d != []
    ensures DirKey(d + "/") == DirKey(d)
  {
    assert (d + "/")[..|d|] == d;
  }

  /** `ntpath.split(p)`: the head (without trailing separators, unless it is nothing but
      separators) and the tail after the last separator. Drive letters are not modelled. */
  function SplitPath(p: string): (r: (string, string))
    ensures r.0 <= p && |r.0| + |r.1| <= |p| && r.1 == p[|p| - |r.1|..] && NoSep(r.1)
    ensures r.1 == [] <==> p == [] || IsSep(p[|p| - 1])
    ensures forall k :: |r.0| <= k < |p| - |r.1| ==> IsSep(p[k])
    ensures |r.0| + |r.1| == |p| || (r.0 != [] && !IsSep(r.0[|r.0| - 1]))
    ensures r.0 != [] && IsSep(r.0[|r.0| - 1]) ==> forall k :: 0 <= k < |r.0| ==> IsSep(r.0[k])
  {
    var tail := Tail(p);
    var head := p[..|p| - |tail|];
    var stripped := RStripSeps(head);
    (if stripped == [] then head else stripped, tail)
  }

  /** `_get_filename`: the tail of the path, or the basename of its head when the path
      ends in a separator. */
  function GetFilename(p: string): (r: string)
    ensures |r| <= |p|
  {
    var parts := SplitPath(p);
    if parts.1 != [] then parts.1 else SplitPath(parts.0).1
  }

  /** `_gen_fname_str`: `<output_dir>/<name>-<ddmmyyyy>_<file name>`. */
  function GenFnameStr(outputDir: string, name: string, date: string, path: string): (r: string)
    ensures EndsWith(r, "_" + GetFilename(path))
    ensures (name == [] || name[0] != '/') ==> outputDir <= r
  {
    var stem := Join(outputDir, name) + "-" + date;
    var file := "_" + GetFilename(path);
    assert (stem + file)[|stem|..] == file;
    assert (name == [] || name[0] != '/') ==> outputDir <= stem;
    stem + file
  }

  // ---- properties ----

  /** The file name is the last component once trailing separators are dropped. */
  lemma {:induction false} GetFilenameIsLastComponent(p: string)
    ensures GetFilename(p) == Tail(RStripSeps(p))
    ensures NoSep(GetFilename(p))
  {
    var tail := Tail(p);
    if tail != [] {
      assert !IsSep(p[|p| - 1]);
      assert RStripSeps(p) == p;
      assert GetFilename(p) == tail;
    } else {
      var stripped := RStripSeps(p);
      assert p[..|p| - 0] == p;
      assert SplitPath(p).0 == if stripped == [] then p else stripped;
      if stripped == [] {
        assert GetFilename(p) == Tail(p);
      } else {
        assert GetFilename(p) == Tail(stripped);
      }
    }
  }

  lemma GetFilenameNoSep(p: string)
    ensures NoSep(GetFilename(p))
  {
    GetFilenameIsLastComponent(p);
  }

  /** The tail of `dir + name`, where `dir` is empty or ends in a separator and `name`
      has none, is `name`. */
  lemma {:induction false} TailAfterSep(dir: string, name: string)
    requires dir == [] || IsSep(dir[|dir| - 1])
    requires NoSep(name)
    ensures Tail(dir + name) == name
    decreases |name|
  {
    if name == [] {
      assert dir + name == dir;
    } else {
      var init := name[..|name| - 1];
      var last := name[|name| - 1];
      var whole := dir + name;
      assert whole[|whole| - 1] == last && !IsSep(last);
      assert whole[..|whole| - 1] == dir + init;
      TailAfterSep(dir, init);
      assert Tail(whole) == Tail(dir + init) + [last];
      assert init + [last] == name;
    }
  }


  /** A path without separators is its own file name. */
  lemma {:induction false} GetFilenameOfName(name: string)
    requires NoSep(name) && name != []
    ensures GetFilename(name) == name
  {
    TailAfterSep("", name);
    assert "" + name == name;
  }

  /** Joining a directory and a separator-free name: the file name is that name. */
  lemma {:induction false} GetFilenameOfJoin(dir: string, name: string)
    requires NoSep(name) && name != []
    ensures GetFilename(Join(dir, name)) == name
  {
    var j := Join(dir, name);
    if dir == [] || dir[|dir| - 1] == '/' {
      TailAfterSep(dir, name);
    } else {
      TailAfterSep(dir + "/", name);
      assert j == (dir + "/") + name;
    }
  }

  /** Trailing separators do not change the file name of a path whose tail is non-empty. */
  lemma {:induction false} GetFilenameTrailingSep(p: string, sep: char)
    requires IsSep(sep) && Tail(p) != []
    ensures GetFilename(p + [sep]) == GetFilename(p)
  {
    var q := p + [sep];
    assert q[..|q| - 1] == p;
    assert RStripSeps(q) == RStripSeps(p);
    GetFilenameIsLastComponent(q);
    GetFilenameIsLastComponent(p);
  }

  /** `os.path.join` is injective in its second part while that part is relative. */
  lemma {:induction false} JoinInjective(dir: string, a: string, b: string)
    requires a == [] || a[0] != '/'
    requires b == [] || b[0] != '/'
    requires Join(dir, a) == Join(dir, b)
    ensures a == b
  {
    var pa := Join(dir, a)[..|Join(dir, a)| - |a|];
    if dir == [] || dir[|dir| - 1] == '/' {
      assert Join(dir, a) == dir + a && Join(dir, b) == dir + b;
      assert (dir + a)[|dir|..] == a && (dir + b)[|dir|..] == b;
    } else {
      assert Join(dir, a) == dir + "/" + a && Join(dir, b) == dir + "/" + b;
      assert (dir + "/" + a)[|dir| + 1..] == a && (dir + "/" + b)[|dir| + 1..] == b;
    }
  }

  /** Joining a relative part keeps both parts whole. A solver aid for length arguments. */
  lemma JoinLength(a: string, b: string)
    requires b == [] || b[0] != '/'
    ensures |Join(a, b)| >= |a| + |b|
  {
  }

  lemma NoSepConcat(a: string, b: string)
    requires NoSep(a) && NoSep(b)
    ensures NoSep(a + b)
  {
    forall k | 0 <= k < |a + b| ensures !IsSep((a + b)[k]) {
      if k >= |a| { assert (a + b)[k] == b[k - |a|]; }
    }
  }

  lemma LocalNameNoSep(name: string, date: string, file: string)
    requires NoSep(name) && NoSep(date) && NoSep(file)
    ensures NoSep(name + "-" + date + "_" + file)
  {
    NoSepConcat(name, "-");
    NoSepConcat(name + "-", date);
    NoSepConcat(name + "-" + date, "_");
    NoSepConcat(name + "-" + date + "_", file);
  }

  /** The generated name's suffix, grouped as one piece. A solver aid. */
  lemma Reassociate(x: string, date: string, file: string)
    ensures x + "-" + date + "_" + file == x + ("-" + date + "_" + file)
  {
  }

  /** Regrouping a three-part concatenation. A solver aid. */
  lemma Regroup(x: string, y: string, z: string)
    ensures x + (y + z) == x + y + z
  {
  }

  /** Text appended after a relative second part can be appended after the join. */
  lemma JoinAppend(dir: string, x: string, y: string)
    requires x + y == [] || (x + y)[0] != '/'
    ensures Join(dir, x + y) == Join(dir, x) + y
  {
    var xy := x + y;
    if x != [] { assert xy[0] == x[0]; }
    if dir == [] || dir[|dir| - 1] == '/' {
      assert Join(dir, xy) == dir + xy && Join(dir, x) == dir + x;
      Regroup(dir, x, y);
    } else {
      assert Join(dir, xy) == dir + "/" + xy && Join(dir, x) == dir + "/" + x;
      Regroup(dir + "/", x, y);
    }
  }

  /** `_gen_fname_str` is the joined tool name, a dash, the date, an underscore and the
      input's file name. A solver aid that unfolds the definition once. */
  lemma GenFnameShape(outputDir: string, name: string, date: string, path: string)
    ensures GenFnameStr(outputDir, name, date, path) == Join(outputDir, name) + "-" + date + "_" + GetFilename(path)
  {
    Regroup(Join(outputDir, name) + "-" + date, "_", GetFilename(path));
  }

  /** The output file of `_gen_fname_str` lies directly in the output directory, and its
      own name is `<name>-<date>_<file name of the input>`. */
  lemma {:induction false} GenFnameInOutputDir(outputDir: string, name: string, date: string, path: string)
    requires NoSep(name) && NoSep(date) && GetFilename(path) != []
    ensures GetFilename(GenFnameStr(outputDir, name, date, path)) == name + "-" + date + "_" + GetFilename(path)
  {
    var file := GetFilename(path);
    GetFilenameNoSep(path);
    GenFnameShape(outputDir, name, date, path);
    JoinedFileName(outputDir, name, date, file);
  }

  lemma {:induction false} JoinedFileName(outputDir: string, name: string, date: string, file: string)
    requires NoSep(name) && NoSep(date) && NoSep(file) && file != []
    ensures GetFilename(Join(outputDir, name) + "-" + date + "_" + file) == name + "-" + date + "_" + file
  {
    LocalNameNoSep(name, date, file);
    var rest := "-" + date + "_" + file;
    var local := name + rest;
    var j := Join(outputDir, name);
    Reassociate(name, date, file);
    Reassociate(j, date, file);
    assert local[0] != '/' by {
      if name != [] { assert local[0] == name[0]; } else { assert local[0] == '-'; }
    }
    JoinAppend(outputDir, name, rest);
    GetFilenameOfJoin(outputDir, local);
  }

  /** An input `<dir>/<file>` gives `<output_dir>/<name>-<date>_<file>`: only the input's
      file name survives, never its directory. */
  lemma GenFnameOfJoinedInput(outputDir: string, name: string, date: string, dir: string, file: string)
    requires NoSep(file) && file != []
    ensures GenFnameStr(outputDir, name, date, Join(dir, file)) == Join(outputDir, name) + "-" + date + "_" + file
  {
    GetFilenameOfJoin(dir, file);
    GenFnameShape(outputDir, name, date, Join(dir, file));
  }
}

=== FILE: pipeline.dfy ===
/** The pipeline engine of scirnap/base.py: command generation for every wrapped tool, the
    execution wrapper that logs each command (and skips it in a dry run), file discovery and
    the three run entry points, which close the log when they finish.

    The class `BasePipeline` holds what the original object holds; its methods are proved
    against the specification functions defined first (`Generate`, `Exec`, `Unit`,
    `RunSeq`, `RunAll`, `PerFile`), whose properties are proved in module PipelineFacts.
    Spawning a process is counted, not performed; the clock's readings and the outcome of
    the `--version` probe are parameters. */
module Pipeline {
  import opened Results
  import opened Text
  import ByteRepr
  import Paths
  import PoolCmd
  import SortCmd
  import FeatureCountsCmd
  import Gtf2BedCmd
  import FastQCCmd
  import CutadaptCmd
  import Hisat2Cmd
  import StringTieCmd

  /** The wrapped tool, with the settings only that tool has (one per subclass of
      `BasePipeline`). An absent Cutadapt or Hisat2 setup is a constructor that returned
      early on an invalid mode. */
  datatype Tool =
    | Base
    | FastQC
    | Pool(filenameMap: map<string, string>)
    | Sort
    | GTF2Bed
    | FeatureCounts(fcParamStr: string, fcGtfPath: string)
    | StringTie(stParamStr: string, stGtfPath: string, ctabPath: string)
    | Cutadapt(cutadapt: Option<CutadaptCmd.Setup>)
    | Hisat2(hisat2: Option<Hisat2Cmd.Setup>)

  /** What every command is built from. */
  datatype Config = Config(programLocation: string, outputDir: string, name: string, tool: Tool)

  /** The argument of `generate_cmd`: one path, or (for Pool and FeatureCounts) a list of
      paths. */
  datatype Arg = One(path: string) | Many(paths: seq<string>)

  /** The observable state of a pipeline object: the lines it appended to its log, whether
      the log is still open, how many processes it spawned, and the directories on disk. */
  datatype Sys = Sys(log: seq<string>, logOpen: bool, spawned: nat, dirs: set<string>)

  /** A run step either completes or stops with an error, in either case in some state. */
  datatype Outcome = Done(sys: Sys) | Failed(sys: Sys, error: Error)

  /** What the environment answers at construction: the bytes `<program> --version` writes
      to its standard output (none when it printed nothing) and the directories already on disk,
      each spelled as `Paths.DirKey` spells it (no trailing `/`). */
  datatype Env = Env(version: seq<bv8>, dirs: set<string>)

  // ---- command generation ----

  /** `generate_cmd` of each tool, apart from the directory StringTie creates. */
  function Command(cfg: Config, arg: Arg, date: string): (r: Result<string>)
    ensures cfg.tool in {Tool.FastQC, Tool.Sort, Tool.GTF2Bed} ==> (r.Ok? <==> arg.One?)
    ensures (cfg.tool.Pool? || cfg.tool.FeatureCounts?) && arg.One? ==> r == Err(WrongArgKind)
  {
    var p, od, name := cfg.programLocation, cfg.outputDir, cfg.name;
    match cfg.tool
    case Base => Ok(BaseCommand)
    case FastQC =>
      if arg.One? then Ok(FastQCCmd.Command(p, od, arg.path)) else Err(WrongArgKind)
    case Pool(m) =>
      if arg.Many? then PoolCmd.Command(p, od, m, arg.paths) else Err(WrongArgKind)
    case Sort =>
      if arg.One? then Ok(SortCmd.Command(p, od, arg.path)) else Err(WrongArgKind)
    case GTF2Bed =>
      if arg.One? then Ok(Gtf2BedCmd.Command(p, od, name, date, arg.path)) else Err(WrongArgKind)
    case FeatureCounts(ps, gtf) =>
      if arg.Many? then FeatureCountsCmd.Command(p, ps, gtf, od, name, date, arg.paths) else Err(WrongArgKind)
    case StringTie(_, _, ctab) =>
      if arg.One? then Ok(StringTieCommand(cfg, date, StringTieCmd.CtabDir(ctab, arg.path), arg.path))
      else Err(WrongArgKind)
    case Cutadapt(setup) =>
      // an unconfigured object has no `s_or_p`, whatever the argument
      if setup.None? then Err(NotConfigured)
      else if arg.One? then CutadaptCmd.Command(p, setup, od, name, date, arg.path) else Err(WrongArgKind)
    case Hisat2(setup) =>
      if setup.None? then Err(NotConfigured)
      else if arg.One? then Hisat2Cmd.Command(p, setup, od, name, date, arg.path) else Err(WrongArgKind)
  }

  /** The base class's placeholder command, whatever the argument. */
  const BaseCommand := "echo YouNeedToSelectAnOverridingClass"

  /** StringTie's command for one sample, given its ctab directory. */
  function StringTieCommand(cfg: Config, date: string, ctabDir: string, path: string): string
    requires cfg.tool.StringTie?
  {
    StringTieCmd.Command(cfg.programLocation, cfg.tool.stParamStr, cfg.tool.stGtfPath, cfg.outputDir, cfg.name,
                         date, ctabDir, path)
  }

  /** Whether building this command creates a directory (StringTie's ctab directory). */
  predicate MakesDir(cfg: Config, arg: Arg) {
    cfg.tool.StringTie? && arg.One?
  }

  /** `generate_cmd` as a step on the directories on disk: StringTie's build creates the
      sample's ctab directory, and fails when it exists; the other builds change nothing. */
  function Generate(cfg: Config, dirs: set<string>, arg: Arg, date: string): (r: Result<(string, set<string>)>)
    ensures r.Ok? ==> dirs <= r.value.1
    ensures r.Ok? && !MakesDir(cfg, arg) ==> r.value.1 == dirs
  {
    if MakesDir(cfg, arg) then
      var m := StringTieCmd.MakeCtabDir(dirs, cfg.tool.ctabPath, arg.path);
      if m.Err? then Err(m.error) else Ok((StringTieCommand(cfg, date, m.value.0, arg.path), m.value.1))
    else
      var c := Command(cfg, arg, date);
      if c.Err? then Err(c.error) else Ok((c.value, dirs))
  }

  /** A build succeeds exactly when the command does and, for StringTie, the sample's ctab
      directory is new; only StringTie's build adds a directory. */
  lemma GenerateOutcome(cfg: Config, dirs: set<string>, arg: Arg, date: string)
    ensures var r := Generate(cfg, dirs, arg, date);
            !MakesDir(cfg, arg) ==>
              (r.Ok? <==> Command(cfg, arg, date).Ok?) && (r.Ok? ==> r.value == (Command(cfg, arg, date).value, dirs))
    ensures var r := Generate(cfg, dirs, arg, date);
            MakesDir(cfg, arg) ==>
              var d := StringTieCmd.CtabDir(cfg.tool.ctabPath, arg.path);
              (r.Ok? <==> Paths.DirKey(d) !in dirs) && (r.Err? ==> r.error == DirExists(d))
              && (r.Ok? ==> r.value == (Command(cfg, arg, date).value, dirs + {Paths.DirKey(d)}))
    ensures var r := Generate(cfg, dirs, arg, date);
            r.Err? ==> Command(cfg, arg, date).Err? || MakesDir(cfg, arg)
  {
    if MakesDir(cfg, arg) {
      CtabBuild(cfg, dirs, arg, date);
    }
  }

  /** StringTie's build: the command for the sample's ctab directory, which must be new. */
  lemma CtabBuild(cfg: Config, dirs: set<string>, arg: Arg, date: string)
    requires MakesDir(cfg, arg)
    ensures var r := Generate(cfg, dirs, arg, date);
            var d := StringTieCmd.CtabDir(cfg.tool.ctabPath, arg.path);
            && Command(cfg, arg, date) == Ok(StringTieCommand(cfg, date, d, arg.path))
            && (r.Ok? <==> Paths.DirKey(d) !in dirs) && (r.Err? ==> r.error == DirExists(d))
            && (r.Ok? ==> r.value == (StringTieCommand(cfg, date, d, arg.path), dirs + {Paths.DirKey(d)}))
  {
    StringTieDispatch(cfg, arg, date);
  }

  /** featureCounts' branch of the dispatch on the tool. A solver aid: it unfolds `Command` for one
      tool so that its callers need not. */
  lemma FeatureCountsDispatch(cfg: Config, paths: seq<string>, date: string)
    requires cfg.tool.FeatureCounts?
    ensures Command(cfg, Many(paths), date)
            == FeatureCountsCmd.Command(cfg.programLocation, cfg.tool.fcParamStr, cfg.tool.fcGtfPath,
                                        cfg.outputDir, cfg.name, date, paths)
  {
    match cfg.tool
    case FeatureCounts(ps, gtf) =>
      assert Command(cfg, Many(paths), date)
             == FeatureCountsCmd.Command(cfg.programLocation, ps, gtf, cfg.outputDir, cfg.name, date, paths);
  }

  /** The merge's branch of the dispatch on the tool. A solver aid: it unfolds `Command` for one
      tool so that its callers need not. */
  lemma PoolDispatch(cfg: Config, paths: seq<string>, date: string)
    requires cfg.tool.Pool?
    ensures Command(cfg, Many(paths), date)
            == PoolCmd.Command(cfg.programLocation, cfg.outputDir, cfg.tool.filenameMap, paths)
  {
    match cfg.tool
    case Pool(m) =>
      assert Command(cfg, Many(paths), date) == PoolCmd.Command(cfg.programLocation, cfg.outputDir, m, paths);
  }

  /** StringTie's branch of the dispatch on the tool. A solver aid: it unfolds `Command` for one
      tool so that its callers need not. */
  lemma StringTieDispatch(cfg: Config, arg: Arg, date: string)
    requires MakesDir(cfg, arg)
    ensures Command(cfg, arg, date)
            == Ok(StringTieCommand(cfg, date, StringTieCmd.CtabDir(cfg.tool.ctabPath, arg.path), arg.path))
  {
    match cfg.tool
    case StringTie(_, _, ctab) =>
      assert Command(cfg, arg, date)
             == Ok(StringTieCommand(cfg, date, StringTieCmd.CtabDir(ctab, arg.path), arg.path));
  }

  // ---- logging and execution ----

  /** One log record: the command, a tab, a space, the timestamp, a newline. */
  function LogLine(cmd: string, stamp: string): string {
    cmd + "\t " + stamp + "\n"
  }

  /** `# key: value` records of the parameters, in order. */
  function ParamLines(params: seq<(string, string)>): (lines: seq<string>)
    ensures |lines| == |params|
    ensures forall k :: 0 <= k < |params| ==> lines[k] == "# " + params[k].0 + ": " + params[k].1 + "\n"
  {
    seq(|params|, k requires 0 <= k < |params| => "# " + params[k].0 + ": " + params[k].1 + "\n")
  }

  /** The version record written at construction, if the probe printed anything: the
      probe's output is bytes, so the record holds their `repr` (`b'...'`, with any newline
      of the output escaped) and is itself not ended by a newline. */
  function VersionLines(version: seq<bv8>): (lines: seq<string>)
    ensures |lines| == if version == [] then 0 else 1
  {
    if version == [] then [] else ["# program version: " + ByteRepr.Repr(version)]
  }

  /** The version record is one line, `# program version: b` and the quoted escaped bytes,
      and reading the text between the quotes back gives the probe's output. */
  lemma VersionRecord(version: seq<bv8>)
    requires version != []
    ensures var line := VersionLines(version)[0];
            && '\n' !in line
            && |line| >= 22 && line[..20] == "# program version: b"
            && line[20] in "'\"" && line[|line| - 1] == line[20]
            && ByteRepr.Unescape(line[21..|line| - 1]) == Some(version)
  {
    var r := ByteRepr.Repr(version);
    ByteRepr.ReprRoundTrip(version);
    VersionLineShape(r, version);
  }

  /** The fixed text before a `repr` adds no newline and keeps the `b`, the quotes and
      what lies between them. */
  lemma VersionLineShape(r: string, version: seq<bv8>)
    requires '\n' !in r && |r| >= 3 && r[0] == 'b' && (r[1] == '\'' || r[1] == '"') && r[|r| - 1] == r[1]
    requires ByteRepr.Unescape(r[2..|r| - 1]) == Some(version)
    ensures var line := "# program version: " + r;
            && '\n' !in line
            && |line| >= 22 && line[..20] == "# program version: b"
            && line[20] in "'\"" && line[|line| - 1] == line[20]
            && ByteRepr.Unescape(line[21..|line| - 1]) == Some(version)
  {
    var prefix := "# program version: ";
    var line := prefix + r;
    assert '\n' !in prefix;
    forall k | 0 <= k < |line|
      ensures line[k] != '\n'
    {
      if k >= |prefix| { assert line[k] == r[k - |prefix|]; }
    }
    assert line[..20] == prefix + r[..1];
    assert line[21..|line| - 1] == r[2..|r| - 1];
  }

  /** `exec_cmd`: writing to a closed log fails before anything runs; otherwise one record
      is appended and, unless this is a dry run, one process is spawned. */
  function Exec(s: Sys, dry: bool, cmd: string, stamp: string): Outcome
  {
    if !s.logOpen then Failed(s, LogClosed)
    else Done(s.(log := s.log + [LogLine(cmd, stamp)], spawned := s.spawned + if dry then 0 else 1))
  }

  /** `_gen_and_exec_cmd` (and one turn of the sequential loop): build, then execute. A
      failing build stops the unit before anything is logged. */
  function Unit(cfg: Config, dry: bool, s: Sys, arg: Arg, date: string, stamp: string): Outcome
  {
    var g := Generate(cfg, s.dirs, arg, date);
    if g.Err? then Failed(s, g.error) else Exec(s.(dirs := g.value.1), dry, g.value.0, stamp)
  }

  /** The end of a run entry point: a completed run closes the log; a failure propagates
      as an exception and leaves it open. */
  function CloseOnDone(o: Outcome): Outcome {
    if o.Done? then Done(o.sys.(logOpen := false)) else o
  }

  /** The error a method reports for an outcome. */
  function Report(o: Outcome): Option<Error> {
    if o.Done? then None else Some(o.error)
  }

  /** The sequential loop of `run_per_file`: unit by unit in list order, stopping at the
      first failure. A unit is what one `generate_cmd` call receives: a path, or for Pool
      a group of paths merged into one file. `stamps[i]` is the clock's reading when unit
      `i` is logged. */
  function RunSeq(cfg: Config, dry: bool, s: Sys, units: seq<Arg>, date: string, stamps: seq<string>): Outcome
    requires |stamps| == |units|
    decreases |units|
  {
    if units == [] then Done(s)
    else
      match Unit(cfg, dry, s, units[0], date, stamps[0])
      case Failed(s', e) => Failed(s', e)
      case Done(s') => RunSeq(cfg, dry, s', units[1..], date, stamps[1..])
  }

  /** The sequential loop from position `i` on: the unit of file `i`, then the rest. */
  lemma RunSeqStep(cfg: Config, dry: bool, s: Sys, units: seq<Arg>, date: string, stamps: seq<string>, i: nat)
    requires |stamps| == |units| && i < |units|
    ensures var u := Unit(cfg, dry, s, units[i], date, stamps[i]);
            RunSeq(cfg, dry, s, units[i..], date, stamps[i..])
            == if u.Failed? then u else RunSeq(cfg, dry, u.sys, units[i + 1..], date, stamps[i + 1..])
  {
    assert units[i..][1..] == units[i + 1..] && stamps[i..][1..] == stamps[i + 1..];
  }

  /** `order` lists positions in `units`, each exactly once. */
  predicate IsPermutation(order: seq<nat>, n: nat) {
    && |order| == n
    && (forall k :: 0 <= k < |order| ==> order[k] < n)
    && (forall k, l :: 0 <= k < l < |order| ==> order[k] != order[l])
    && (forall i :: 0 <= i < n ==> i in order)
  }

  /** The worker pool of `run_per_file`: every unit is built and executed once, in the
      order the pool happens to run them (`order`); a failing unit does not stop the others,
      and the first failure in that order is the one reported. */
  function RunAll(cfg: Config, dry: bool, s: Sys, units: seq<Arg>, order: seq<nat>, date: string,
                  stamps: seq<string>): Outcome
    requires forall k :: 0 <= k < |order| ==> order[k] < |units|
    requires |stamps| == |order|
    decreases |order|
  {
    if order == [] then Done(s)
    else
      var u := Unit(cfg, dry, s, units[order[0]], date, stamps[0]);
      var rest := RunAll(cfg, dry, u.sys, units, order[1..], date, stamps[1..]);
      if u.Failed? then Failed(rest.sys, u.error) else rest
  }

  /** `if self.nthreads:` -- both `None` and `0` are false. */
  predicate Truthy(n: Option<int>) {
    n.Some? && n.value != 0
  }

  /** `n if n < count else count` */
  function Clamp(n: int, count: nat): (r: int)
    ensures r <= n && r <= count && (r == n || r == count)
  {
    if n < count then n else count
  }

  /** `run_per_file`: the outcome and the new value of `nthreads`. With threads requested,
      the count is first clamped to the number of units (and a pool of fewer than one
      worker cannot be made); without, the units run sequentially. */
  function PerFile(cfg: Config, dry: bool, nthreads: Option<int>, s: Sys, units: seq<Arg>, date: string,
                   stamps: seq<string>, order: seq<nat>): (r: (Outcome, Option<int>))
    requires |stamps| == |units| && IsPermutation(order, |units|)
    ensures r.0.Done? ==> !r.0.sys.logOpen
  {
    if Truthy(nthreads) then
      var n := Clamp(nthreads.value, |units|);
      if n < 1 then (Failed(s, BadThreadCount(n)), Some(n))
      else (CloseOnDone(RunAll(cfg, dry, s, units, order, date, stamps)), Some(n))
    else (CloseOnDone(RunSeq(cfg, dry, s, units, date, stamps)), nthreads)
  }

  // ---- file discovery ----

  /** The entries of a listing whose names contain `ending`, joined to `dataDir`, in
      listing order. */
  function Discover(dataDir: string, ending: string, listing: seq<string>): (r: seq<string>)
    ensures ending == [] ==> |r| == |listing|
    decreases |listing|
  {
    if listing == [] then []
    else
      var last := listing[|listing| - 1];
      Discover(dataDir, ending, listing[..|listing| - 1])
        + (if Contains(last, ending) then [Paths.Join(dataDir, last)] else [])
  }

  // ---- the pipeline object ----

  class BasePipeline {
    const dataDir: string
    const outputDir: string
    const programLocation: string
    const fileEnding: string
    const name: string
    const dryrun: bool
    const tool: Tool
    const params: seq<(string, string)>
    var nthreads: Option<int>
    var log: seq<string>
    var logOpen: bool
    var spawned: nat
    var dirs: set<string>

    function Cfg(): Config {
      Config(programLocation, outputDir, name, tool)
    }

    function State(): Sys
      reads this
    {
      Sys(log, logOpen, spawned, dirs)
    }

    /** `BasePipeline(data_dir, program_location, output_dir, ...)` used directly:
        `output_dir` defaults to `data_dir`, the version probe is the only process spawned
        and its answer, when there is one, the only record; no parameters. */
    constructor ForBase(env: Env, dataDir: string, programLocation: string, outputDir: Option<string>,
                        fileEnding: string, name: string, dryrun: bool := false, nthreads: Option<int> := None)
      ensures Cfg() == Config(programLocation, if outputDir.Some? then outputDir.value else dataDir, name, Base)
      ensures this.dataDir == dataDir && this.fileEnding == fileEnding && this.dryrun == dryrun
      ensures this.nthreads == nthreads && params == []
      ensures State() == Sys(VersionLines(env.version), true, 1, env.dirs)
    {
      this.dataDir, this.programLocation, this.fileEnding, this.name := dataDir, programLocation, fileEnding, name;
      this.outputDir := if outputDir.Some? then outputDir.value else dataDir;
      this.dryrun, this.nthreads, this.tool, this.params := dryrun, nthreads, Base, [];
      log, logOpen, spawned, dirs := VersionLines(env.version), true, 1, env.dirs;
    }

    /** `FastQC(data_dir, program_location, output_dir, ...)`: `output_dir` falls back to
        `data_dir` only when absent; no parameters are logged. */
    constructor ForFastQC(env: Env, dataDir: string, programLocation: string, outputDir: Option<string>,
                          fileEnding: string := FastQCCmd.DefaultEnding, name: string := FastQCCmd.DefaultName,
                          dryrun: bool := false, nthreads: Option<int> := None)
      ensures Cfg() == Config(programLocation, if outputDir.Some? then outputDir.value else dataDir, name, FastQC)
      ensures this.dataDir == dataDir && this.fileEnding == fileEnding && this.dryrun == dryrun
      ensures this.nthreads == nthreads && params == []
      ensures State() == Sys(VersionLines(env.version), true, 1, env.dirs)
    {
      this.dataDir, this.programLocation, this.fileEnding, this.name := dataDir, programLocation, fileEnding, name;
      this.outputDir := if outputDir.Some? then outputDir.value else dataDir;
      this.dryrun, this.nthreads, this.tool, this.params := dryrun, nthreads, FastQC, [];
      log, logOpen, spawned, dirs := VersionLines(env.version), true, 1, env.dirs;
    }

    /** `Pool(...)`: `output_dir` is forwarded to the base; an empty rename map is the
        original's `None`. */
    constructor ForPool(env: Env, dataDir: string, programLocation: string, outputDir: Option<string>,
                        fileEnding: string := PoolCmd.DefaultEnding, name: string := PoolCmd.DefaultName,
                        filenameMap: map<string, string> := map[], dryrun: bool := false,
                        nthreads: Option<int> := None)
      ensures Cfg() == Config(programLocation, if outputDir.Some? then outputDir.value else dataDir, name,
                              Pool(filenameMap))
      ensures this.dataDir == dataDir && this.fileEnding == fileEnding && this.dryrun == dryrun
      ensures this.nthreads == nthreads && params == []
      ensures State() == Sys(VersionLines(env.version), true, 1, env.dirs)
    {
      this.dataDir, this.programLocation, this.fileEnding, this.name := dataDir, programLocation, fileEnding, name;
      this.outputDir := if outputDir.Some? then outputDir.value else dataDir;
      this.dryrun, this.nthreads, this.tool, this.params := dryrun, nthreads, Pool(filenameMap), [];
      log, logOpen, spawned, dirs := VersionLines(env.version), true, 1, env.dirs;
    }

    /** `Sort(...)`: `output_dir` is forwarded to the base; the default name is empty. */
    constructor ForSort(env: Env, dataDir: string, programLocation: string, outputDir: Option<string>,
                        fileEnding: string := SortCmd.DefaultEnding, name: string := SortCmd.DefaultName,
                        dryrun: bool := false, nthreads: Option<int> := None)
      ensures Cfg() == Config(programLocation, if outputDir.Some? then outputDir.value else dataDir, name, Sort)
      ensures this.dataDir == dataDir && this.fileEnding == fileEnding && this.dryrun == dryrun
      ensures this.nthreads == nthreads && params == []
      ensures State() == Sys(VersionLines(env.version), true, 1, env.dirs)
    {
      this.dataDir, this.programLocation, this.fileEnding, this.name := dataDir, programLocation, fileEnding, name;
      this.outputDir := if outputDir.Some? then outputDir.value else dataDir;
      this.dryrun, this.nthreads, this.tool, this.params := dryrun, nthreads, Sort, [];
      log, logOpen, spawned, dirs := VersionLines(env.version), true, 1, env.dirs;
    }

    /** `GTF2Bed(...)`: the output directory is set after the base, so the given one is
        used; it has no parameters, so none are logged. */
    constructor ForGTF2Bed(env: Env, dataDir: string, programLocation: string, outputDir: string,
                           fileEnding: string := Gtf2BedCmd.DefaultEnding, name: string := Gtf2BedCmd.DefaultName,
                           dryrun: bool := false, nthreads: Option<int> := None)
      ensures Cfg() == Config(programLocation, outputDir, name, GTF2Bed)
      ensures this.dataDir == dataDir && this.fileEnding == fileEnding && this.dryrun == dryrun
      ensures this.nthreads == nthreads && params == Gtf2BedCmd.Params()
      ensures State() == Sys(VersionLines(env.version), true, 1, env.dirs)
    {
      this.dataDir, this.programLocation, this.fileEnding, this.name := dataDir, programLocation, fileEnding, name;
      this.outputDir := outputDir;
      this.dryrun, this.nthreads, this.tool, this.params := dryrun, nthreads, GTF2Bed, Gtf2BedCmd.Params();
      log, logOpen, spawned, dirs := VersionLines(env.version), true, 1, env.dirs;
      new;
      var _ := AddParamsToLogfile();
    }

    /** `FeatureCounts(...)`: logs its GTF path and parameter string at construction. */
    constructor ForFeatureCounts(env: Env, dataDir: string, programLocation: string, paramStr: string,
                                 outputDir: string, gtfPath: string,
                                 fileEnding: string := FeatureCountsCmd.DefaultEnding,
                                 name: string := FeatureCountsCmd.DefaultName, dryrun: bool := false,
                                 nthreads: Option<int> := None)
      ensures Cfg() == Config(programLocation, outputDir, name, FeatureCounts(paramStr, gtfPath))
      ensures this.dataDir == dataDir && this.fileEnding == fileEnding && this.dryrun == dryrun
      ensures this.nthreads == nthreads && params == FeatureCountsCmd.Params(gtfPath, paramStr)
      ensures State() == Sys(VersionLines(env.version) + ParamLines(params), true, 1, env.dirs)
    {
      this.dataDir, this.programLocation, this.fileEnding, this.name := dataDir, programLocation, fileEnding, name;
      this.outputDir := outputDir;
      this.dryrun, this.nthreads := dryrun, nthreads;
      this.tool, this.params := FeatureCounts(paramStr, gtfPath), FeatureCountsCmd.Params(gtfPath, paramStr);
      log, logOpen, spawned, dirs := VersionLines(env.version), true, 1, env.dirs;
      new;
      var _ := AddParamsToLogfile();
    }

    /** `StringTie(...)`: logs its GTF path, parameter string and ctab path. */
    constructor ForStringTie(env: Env, dataDir: string, programLocation: string, paramStr: string,
                             outputDir: string, gtfPath: string, ctabPath: string,
                             fileEnding: string := StringTieCmd.DefaultEnding, name: string := StringTieCmd.DefaultName,
                             dryrun: bool := false, nthreads: Option<int> := None)
      ensures Cfg() == Config(programLocation, outputDir, name, StringTie(paramStr, gtfPath, ctabPath))
      ensures this.dataDir == dataDir && this.fileEnding == fileEnding && this.dryrun == dryrun
      ensures this.nthreads == nthreads && params == StringTieCmd.Params(gtfPath, paramStr, ctabPath)
      ensures State() == Sys(VersionLines(env.version) + ParamLines(params), true, 1, env.dirs)
    {
      this.dataDir, this.programLocation, this.fileEnding, this.name := dataDir, programLocation, fileEnding, name;
      this.outputDir := outputDir;
      this.dryrun, this.nthreads := dryrun, nthreads;
      this.tool, this.params := StringTie(paramStr, gtfPath, ctabPath), StringTieCmd.Params(gtfPath, paramStr, ctabPath);
      log, logOpen, spawned, dirs := VersionLines(env.version), true, 1, env.dirs;
      new;
      var _ := AddParamsToLogfile();
    }

    /** `Cutadapt(...)`: an invalid mode returns early, before the output directory, the
        setup and the parameters are stored, so the base's `data_dir` stays the output
        directory and nothing more is logged. */
    constructor ForCutadapt(env: Env, dataDir: string, programLocation: string, paramStr: string,
                            multiqcPath: string, outputDir: string, sOrP: string,
                            fileEnding: string := CutadaptCmd.DefaultEnding, name: string := CutadaptCmd.DefaultName,
                            dryrun: bool := false, nthreads: Option<int> := None)
      ensures var setup := CutadaptCmd.Validate(sOrP, multiqcPath, paramStr);
              Cfg() == Config(programLocation, if setup.Some? then outputDir else dataDir, name, Cutadapt(setup))
              && params == (if setup.Some? then CutadaptCmd.Params(setup.value, outputDir) else [])
      ensures this.dataDir == dataDir && this.fileEnding == fileEnding && this.dryrun == dryrun
      ensures this.nthreads == nthreads
      ensures State() == Sys(VersionLines(env.version) + ParamLines(params), true, 1, env.dirs)
    {
      var setup := CutadaptCmd.Validate(sOrP, multiqcPath, paramStr);
      this.dataDir, this.programLocation, this.fileEnding, this.name := dataDir, programLocation, fileEnding, name;
      this.dryrun, this.nthreads := dryrun, nthreads;
      this.tool := Cutadapt(setup);
      if setup.None? {
        this.outputDir, this.params := dataDir, [];
      } else {
        this.outputDir, this.params := outputDir, CutadaptCmd.Params(setup.value, outputDir);
      }
      log, logOpen, spawned, dirs := VersionLines(env.version), true, 1, env.dirs;
      new;
      if setup.Some? {
        var _ := AddParamsToLogfile();
      }
    }

    /** `Hisat2(...)`: the same early return on an invalid mode as Cutadapt's. */
    constructor ForHisat2(env: Env, dataDir: string, programLocation: string, paramStr: string,
                          outputDir: string, annotationIdxDir: string, sOrP: string,
                          fileEnding: string := Hisat2Cmd.DefaultEnding, name: string := Hisat2Cmd.DefaultName,
                          dryrun: bool := false, nthreads: Option<int> := None)
      ensures var setup := Hisat2Cmd.Validate(sOrP, paramStr, annotationIdxDir);
              Cfg() == Config(programLocation, if setup.Some? then outputDir else dataDir, name, Hisat2(setup))
              && params == (if setup.Some? then Hisat2Cmd.Params(setup.value, outputDir) else [])
      ensures this.dataDir == dataDir && this.fileEnding == fileEnding && this.dryrun == dryrun
      ensures this.nthreads == nthreads
      ensures State() == Sys(VersionLines(env.version) + ParamLines(params), true, 1, env.dirs)
    {
      var setup := Hisat2Cmd.Validate(sOrP, paramStr, annotationIdxDir);
      this.dataDir, this.programLocation, this.fileEnding, this.name := dataDir, programLocation, fileEnding, name;
      this.dryrun, this.nthreads := dryrun, nthreads;
      this.tool := Hisat2(setup);
      if setup.None? {
        this.outputDir, this.params := dataDir, [];
      } else {
        this.outputDir, this.params := outputDir, Hisat2Cmd.Params(setup.value, outputDir);
      }
      log, logOpen, spawned, dirs := VersionLines(env.version), true, 1, env.dirs;
      new;
      if setup.Some? {
        var _ := AddParamsToLogfile();
      }
    }

    /** `add_params_to_logfile`: one `# key: value` record per parameter, in order; the
        first write to a closed log fails. */
    method AddParamsToLogfile() returns (err: Option<Error>)
      modifies this`log
      ensures logOpen || params == [] ==> log == old(log) + ParamLines(params) && err == None
      ensures !logOpen && params != [] ==> log == old(log) && err == Some(LogClosed)
    {
      if !logOpen && params != [] {
        return Some(LogClosed);
      }
      var i := 0;
      while i < |params|
        invariant 0 <= i <= |params|
        invariant log == old(log) + ParamLines(params[..i])
      {
        log := log + ["# " + params[i].0 + ": " + params[i].1 + "\n"];
        i := i + 1;
        assert params[..i] == params[..i - 1] + [params[i - 1]];
      }
      assert params[..i] == params;
      return None;
    }

    /** `exec_cmd` */
    method ExecCmd(cmd: string, stamp: string) returns (err: Option<Error>)
      modifies this`log, this`spawned
      ensures var o := Exec(old(State()), dryrun, cmd, stamp); State() == o.sys && err == Report(o)
    {
      if !logOpen {
        return Some(LogClosed);
      }
      log := log + [LogLine(cmd, stamp)];
      if !dryrun {
        spawned := spawned + 1;
      }
      return None;
    }

    /** `_gen_ctab_str`: only StringTie has a ctab path; on another tool the attribute is
        missing. */
    method GenCtabStr(path: string) returns (r: Result<string>)
      modifies this`dirs
      ensures !tool.StringTie? ==> r == Err(NotConfigured) && dirs == old(dirs)
      ensures tool.StringTie? ==>
        var m := StringTieCmd.MakeCtabDir(old(dirs), tool.ctabPath, path);
        (m.Ok? ==> r == Ok(m.value.0) && dirs == m.value.1) && (m.Err? ==> r == Err(m.error) && dirs == old(dirs))
    {
      if !tool.StringTie? {
        return Err(NotConfigured);
      }
      var dir := Paths.Join(tool.ctabPath, StringTieCmd.SampleStem(path));
      if Paths.DirKey(dir) in dirs {
        return Err(DirExists(dir));
      }
      dirs := dirs + {Paths.DirKey(dir)};
      return Ok(dir);
    }

    /** `generate_cmd` of this object's tool. */
    method GenerateCmd(arg: Arg, date: string) returns (r: Result<string>)
      modifies this`dirs
      ensures var g := Generate(Cfg(), old(dirs), arg, date);
              (g.Ok? ==> r == Ok(g.value.0) && dirs == g.value.1) && (g.Err? ==> r == Err(g.error) && dirs == old(dirs))
    {
      if MakesDir(Cfg(), arg) {
        var ctab := GenCtabStr(arg.path);
        if ctab.Err? {
          return Err(ctab.error);
        }
        r := Ok(StringTieCommand(Cfg(), date, ctab.value, arg.path));
      } else {
        r := Command(Cfg(), arg, date);
      }
    }

    /** `_gen_and_exec_cmd` */
    method GenAndExecCmd(arg: Arg, date: string, stamp: string) returns (err: Option<Error>)
      modifies this`log, this`spawned, this`dirs
      ensures var o := Unit(Cfg(), dryrun, old(State()), arg, date, stamp); State() == o.sys && err == Report(o)
    {
      var cmd := GenerateCmd(arg, date);
      if cmd.Err? {
        return Some(cmd.error);
      }
      err := ExecCmd(cmd.value, stamp);
    }

    /** `run_on_file`: one command for the one path, then the log is closed. */
    method RunOnFile(path: string, date: string, stamp: string) returns (err: Option<Error>)
      modifies this`log, this`spawned, this`dirs, this`logOpen
      ensures var o := CloseOnDone(Unit(Cfg(), dryrun, old(State()), One(path), date, stamp));
              State() == o.sys && err == Report(o)
    {
      err := GenAndExecCmd(One(path), date, stamp);
      if err.None? {
        logOpen := false;
      }
    }

    /** `run_on_files`: one command for the whole list, then the log is closed. */
    method RunOnFiles(paths: seq<string>, date: string, stamp: string) returns (err: Option<Error>)
      modifies this`log, this`spawned, this`dirs, this`logOpen
      ensures var o := CloseOnDone(Unit(Cfg(), dryrun, old(State()), Many(paths), date, stamp));
              State() == o.sys && err == Report(o)
    {
      err := GenAndExecCmd(Many(paths), date, stamp);
      if err.None? {
        logOpen := false;
      }
    }

    /** `run_per_file`: through a worker pool when `nthreads` is truthy (after clamping it
        to the number of units), otherwise one unit after another; then the log is closed.
        `order` is the order in which the pool's workers happen to run the units and
        `stamps` the clock's readings as commands are logged. */
    method RunPerFile(units: seq<Arg>, date: string, stamps: seq<string>, order: seq<nat>)
      returns (err: Option<Error>)
      requires |stamps| == |units| && IsPermutation(order, |units|)
      modifies this
      ensures var r := PerFile(Cfg(), dryrun, old(nthreads), old(State()), units, date, stamps, order);
              State() == r.0.sys && err == Report(r.0) && nthreads == r.1
    {
      if nthreads.Some? && nthreads.value != 0 {
        nthreads := Some(if nthreads.value < |units| then nthreads.value else |units|);
        if nthreads.value < 1 {
          return Some(BadThreadCount(nthreads.value));
        }
        var first := PoolMap(units, date, stamps, order);
        if first.None? {
          logOpen := false;
        }
        return first;
      } else {
        err := RunSequentially(units, date, stamps);
        if err.None? {
          logOpen := false;
        }
      }
    }

    /** The `for` loop of `run_per_file`: each unit's command is built and executed in list
        order, and the first failure ends the run. */
    method RunSequentially(units: seq<Arg>, date: string, stamps: seq<string>) returns (err: Option<Error>)
      requires |stamps| == |units|
      modifies this`log, this`spawned, this`dirs
      ensures var o := RunSeq(Cfg(), dryrun, old(State()), units, date, stamps);
              State() == o.sys && err == Report(o)
    {
      var i := 0;
      while i < |units|
        invariant 0 <= i <= |units|
        invariant RunSeq(Cfg(), dryrun, old(State()), units, date, stamps)
                  == RunSeq(Cfg(), dryrun, State(), units[i..], date, stamps[i..])
      {
        RunSeqStep(Cfg(), dryrun, State(), units, date, stamps, i);
        var e := GenAndExecCmd(units[i], date, stamps[i]);
        if e.Some? {
          return e;
        }
        i := i + 1;
      }
      return None;
    }

    /** `pool.map(self._gen_and_exec_cmd, units)`: every unit is built and executed in the
        workers' order, and the first failure is kept to be raised once the map is over. */
    method PoolMap(units: seq<Arg>, date: string, stamps: seq<string>, order: seq<nat>)
      returns (first: Option<Error>)
      requires forall k :: 0 <= k < |order| ==> order[k] < |units|
      requires |stamps| == |order|
      modifies this`log, this`spawned, this`dirs
      ensures var o := RunAll(Cfg(), dryrun, old(State()), units, order, date, stamps);
              State() == o.sys && first == Report(o)
    {
      first := None;
      var k := 0;
      while k < |order|
        invariant 0 <= k <= |order|
        invariant var rest := RunAll(Cfg(), dryrun, State(), units, order[k..], date, stamps[k..]);
                  RunAll(Cfg(), dryrun, old(State()), units, order, date, stamps)
                  == (if first.Some? then Failed(rest.sys, first.value) else rest)
      {
        var e := GenAndExecCmd(units[order[k]], date, stamps[k]);
        if first.None? {
          first := e;
        }
        assert order[k..][1..] == order[k + 1..] && stamps[k..][1..] == stamps[k + 1..];
        k := k + 1;
      }
    }

    /** `get_files_in_dir` over the directory's listing: the entries whose names contain the
        file ending, joined to the data directory, in listing order. */
    method GetFilesInDir(listing: seq<string>) returns (paths: seq<string>)
      ensures paths == Discover(dataDir, fileEnding, listing)
    {
      paths := [];
      var i := 0;
      while i < |listing|
        invariant 0 <= i <= |listing|
        invariant paths == Discover(dataDir, fileEnding, listing[..i])
      {
        var filename := listing[i];
        if Contains(filename, fileEnding) {
          paths := paths + [Paths.Join(dataDir, filename)];
        }
        assert listing[..i + 1][..i] == listing[..i];
        i := i + 1;
      }
      assert listing[..i] == listing;
    }
  }
}

=== FILE: pipeline_facts.dfy ===
/** What a pipeline run promises, proved about the specification functions of module
    Pipeline (and so about the methods of `BasePipeline`, whose contracts are stated in
    terms of them). */
module PipelineFacts {
  import opened Results
  import opened Text
  import opened Pipeline
  import Paths
  import StringTieCmd
  import FeatureCountsCmd
  import PoolCmd

  /** The tool builds a command for the unit without touching the disk. */
  predicate Builds(cfg: Config, date: string, arg: Arg) {
    !MakesDir(cfg, arg) && Command(cfg, arg, date).Ok?
  }

  /** The command built for such a unit. */
  function Cmd(cfg: Config, date: string, arg: Arg): string
    requires Builds(cfg, date, arg)
  {
    Command(cfg, arg, date).value
  }

  /** The records a run appends when it takes `units` in the order `order`, the k-th one
      stamped `stamps[k]`, and none of them creates a directory: one record for each unit
      whose command builds, none for the others. */
  function Records(cfg: Config, date: string, units: seq<Arg>, order: seq<nat>, stamps: seq<string>): seq<string>
    requires forall k :: 0 <= k < |order| ==> order[k] < |units|
    requires |stamps| == |order|
    decreases |order|
  {
    if order == [] then []
    else
      var c := Command(cfg, units[order[0]], date);
      (if c.Ok? then [LogLine(c.value, stamps[0])] else []) + Records(cfg, date, units, order[1..], stamps[1..])
  }

  /** The first error met when taking `units` in the order `order`, if any. */
  function FirstError(cfg: Config, date: string, units: seq<Arg>, order: seq<nat>): (r: Option<Error>)
    requires forall k :: 0 <= k < |order| ==> order[k] < |units|
    ensures r.None? <==> forall k :: 0 <= k < |order| ==> Command(cfg, units[order[k]], date).Ok?
    decreases |order|
  {
    if order == [] then None
    else
      var c := Command(cfg, units[order[0]], date);
      if c.Err? then Some(c.error)
      else
        var r := FirstError(cfg, date, units, order[1..]);
        assert forall k :: 1 <= k < |order| ==> order[k] == order[1..][k - 1];
        r
  }

  /** The k-th record is that of the k-th unit the run takes, when every unit builds. */
  lemma {:induction false} RecordsAt(cfg: Config, date: string, units: seq<Arg>, order: seq<nat>,
                                     stamps: seq<string>, k: nat)
    requires forall j :: 0 <= j < |order| ==> order[j] < |units| && Builds(cfg, date, units[order[j]])
    requires |stamps| == |order| && k < |order|
    ensures |Records(cfg, date, units, order, stamps)| == |order|
    ensures Records(cfg, date, units, order, stamps)[k] == LogLine(Cmd(cfg, date, units[order[k]]), stamps[k])
    decreases |order|
  {
    if k > 0 {
      RecordsAt(cfg, date, units, order[1..], stamps[1..], k - 1);
    } else if |order| > 1 {
      RecordsAt(cfg, date, units, order[1..], stamps[1..], 0);
    }
  }

  /** The k-th unit the run takes, if its command builds, has its record among the records. */
  lemma {:induction false} RecordsHold(cfg: Config, date: string, units: seq<Arg>, order: seq<nat>,
                                       stamps: seq<string>, k: nat)
    requires forall j :: 0 <= j < |order| ==> order[j] < |units|
    requires |stamps| == |order| && k < |order| && Command(cfg, units[order[k]], date).Ok?
    ensures LogLine(Command(cfg, units[order[k]], date).value, stamps[k]) in Records(cfg, date, units, order, stamps)
    decreases |order|
  {
    if k > 0 {
      RecordsHold(cfg, date, units, order[1..], stamps[1..], k - 1);
    }
  }

  /** Positions `lo .. hi-1` in increasing order. */
  function Positions(lo: nat, hi: nat): (order: seq<nat>)
    requires lo <= hi
    ensures |order| == hi - lo && forall k :: 0 <= k < |order| ==> order[k] == lo + k
  {
    seq(hi - lo, k requires 0 <= k < hi - lo => lo + k)
  }

  /** Positions `0 .. n-1` in order: the sequential loop's order. */
  function InOrder(n: nat): (order: seq<nat>)
    ensures |order| == n && forall k :: 0 <= k < n ==> order[k] == k
  {
    Positions(0, n)
  }

  /** A sequential run whose first unit builds records it and goes on with the rest. */
  lemma SequentialStep(cfg: Config, dry: bool, s: Sys, units: seq<Arg>, date: string, stamps: seq<string>, i: nat)
    requires |stamps| == |units| && s.logOpen && i < |units| && Builds(cfg, date, units[i])
    ensures RunSeq(cfg, dry, s, units[i..], date, stamps[i..])
            == RunSeq(cfg, dry, s.(log := s.log + [LogLine(Cmd(cfg, date, units[i]), stamps[i])],
                                   spawned := s.spawned + if dry then 0 else 1),
                      units[i + 1..], date, stamps[i + 1..])
  {
    RunSeqStep(cfg, dry, s, units, date, stamps, i);
    UnitDone(cfg, dry, s, units[i], date, stamps[i]);
  }

  /** One unit appends at most one record, spawns a process exactly when it appends one
      (and this is not a dry run), and never opens or closes the log. */
  lemma UnitAccounting(cfg: Config, dry: bool, s: Sys, arg: Arg, date: string, stamp: string)
    ensures var u := Unit(cfg, dry, s, arg, date, stamp);
            && s.log <= u.sys.log && |u.sys.log| <= |s.log| + 1
            && (u.Done? <==> |u.sys.log| == |s.log| + 1)
            && u.sys.spawned == s.spawned + (if dry then 0 else |u.sys.log| - |s.log|)
            && u.sys.logOpen == s.logOpen
            && (!s.logOpen ==> u.Failed?)
  {
  }

  /** Sequential mode: every process spawned has its log record, and a dry run spawns
      none; the log only grows. */
  lemma {:induction false} SeqAccounting(cfg: Config, dry: bool, s: Sys, units: seq<Arg>, date: string,
                                         stamps: seq<string>)
    requires |stamps| == |units|
    ensures var o := RunSeq(cfg, dry, s, units, date, stamps);
            && s.log <= o.sys.log && |o.sys.log| <= |s.log| + |units|
            && o.sys.spawned == s.spawned + (if dry then 0 else |o.sys.log| - |s.log|)
            && o.sys.logOpen == s.logOpen
            && (!s.logOpen ==> o.sys.log == s.log && (units != [] ==> o.Failed?))
    decreases |units|
  {
    if units != [] {
      var u := Unit(cfg, dry, s, units[0], date, stamps[0]);
      UnitAccounting(cfg, dry, s, units[0], date, stamps[0]);
      if u.Done? {
        SeqAccounting(cfg, dry, u.sys, units[1..], date, stamps[1..]);
      }
    }
  }

  /** Pool mode keeps the same accounting, whatever the workers' order. */
  lemma {:induction false} PoolAccounting(cfg: Config, dry: bool, s: Sys, units: seq<Arg>, order: seq<nat>,
                                          date: string, stamps: seq<string>)
    requires forall k :: 0 <= k < |order| ==> order[k] < |units|
    requires |stamps| == |order|
    ensures var o := RunAll(cfg, dry, s, units, order, date, stamps);
            && s.log <= o.sys.log && |o.sys.log| <= |s.log| + |order|
            && o.sys.spawned == s.spawned + (if dry then 0 else |o.sys.log| - |s.log|)
            && o.sys.logOpen == s.logOpen
            && (!s.logOpen ==> o.sys.log == s.log && (order != [] ==> o.Failed?))
    decreases |order|
  {
    if order != [] {
      var u := Unit(cfg, dry, s, units[order[0]], date, stamps[0]);
      UnitAccounting(cfg, dry, s, units[order[0]], date, stamps[0]);
      PoolAccounting(cfg, dry, u.sys, units, order[1..], date, stamps[1..]);
    }
  }

  /** `run_per_file` in either mode: one spawned process per log record, none at all in a
      dry run, and records are only ever appended. */
  lemma SpawnsOnlyWhatItLogs(cfg: Config, dry: bool, nthreads: Option<int>, s: Sys, units: seq<Arg>,
                             date: string, stamps: seq<string>, order: seq<nat>)
    requires |stamps| == |units| && IsPermutation(order, |units|)
    ensures var o := PerFile(cfg, dry, nthreads, s, units, date, stamps, order).0;
            && s.log <= o.sys.log && |o.sys.log| <= |s.log| + |units|
            && o.sys.spawned == s.spawned + (if dry then 0 else |o.sys.log| - |s.log|)
            && (dry ==> o.sys.spawned == s.spawned)
  {
    SeqAccounting(cfg, dry, s, units, date, stamps);
    PoolAccounting(cfg, dry, s, units, order, date, stamps);
  }

  /** Once the log is closed, a run records nothing and spawns nothing; with any unit to
      process it fails. */
  lemma ClosedLogRecordsNothing(cfg: Config, dry: bool, nthreads: Option<int>, s: Sys, units: seq<Arg>,
                                date: string, stamps: seq<string>, order: seq<nat>)
    requires |stamps| == |units| && IsPermutation(order, |units|)
    requires !s.logOpen
    ensures var o := PerFile(cfg, dry, nthreads, s, units, date, stamps, order).0;
            && o.sys.log == s.log && o.sys.spawned == s.spawned && !o.sys.logOpen
            && (units != [] ==> o.Failed?)
  {
    SeqAccounting(cfg, dry, s, units, date, stamps);
    PoolAccounting(cfg, dry, s, units, order, date, stamps);
  }

  /** A completed run closes the log, so the object cannot run a second batch. */
  lemma CompletedRunClosesLog(cfg: Config, dry: bool, nthreads: Option<int>, s: Sys, units: seq<Arg>,
                              date: string, stamps: seq<string>, order: seq<nat>,
                              nthreads2: Option<int>, units2: seq<Arg>, stamps2: seq<string>, order2: seq<nat>)
    requires |stamps| == |units| && IsPermutation(order, |units|)
    requires |stamps2| == |units2| && IsPermutation(order2, |units2|) && units2 != []
    requires PerFile(cfg, dry, nthreads, s, units, date, stamps, order).0.Done?
    ensures var s1 := PerFile(cfg, dry, nthreads, s, units, date, stamps, order).0.sys;
            && !s1.logOpen
            && var o2 := PerFile(cfg, dry, nthreads2, s1, units2, date, stamps2, order2).0;
               o2.Failed? && o2.sys.log == s1.log
  {
    var s1 := PerFile(cfg, dry, nthreads, s, units, date, stamps, order).0.sys;
    ClosedLogRecordsNothing(cfg, dry, nthreads2, s1, units2, date, stamps2, order2);
  }

  /** With threads requested, the count becomes `min(nthreads, number of units)`; a
      negative count or an empty list cannot make a pool, and the run fails before
      recording anything. */
  lemma ThreadCountClamped(cfg: Config, dry: bool, nthreads: Option<int>, s: Sys, units: seq<Arg>,
                           date: string, stamps: seq<string>, order: seq<nat>)
    requires |stamps| == |units| && IsPermutation(order, |units|)
    requires Truthy(nthreads)
    ensures var o := PerFile(cfg, dry, nthreads, s, units, date, stamps, order).0;
            var n := PerFile(cfg, dry, nthreads, s, units, date, stamps, order).1;
            && n.Some? && n.value <= nthreads.value && n.value <= |units|
            && (n.value == nthreads.value || n.value == |units|)
            && (nthreads.value < 0 || units == [] ==> o == Failed(s, BadThreadCount(n.value)))
            && (nthreads.value > 0 && units != [] ==> n.value >= 1)
  {
  }

  /** Without threads, `None` and `0` alike leave the count as it was and run the units
      one after another. */
  lemma NoThreadsSequential(cfg: Config, dry: bool, nthreads: Option<int>, s: Sys, units: seq<Arg>,
                            date: string, stamps: seq<string>, order: seq<nat>)
    requires |stamps| == |units| && IsPermutation(order, |units|)
    requires nthreads == None || nthreads == Some(0)
    ensures PerFile(cfg, dry, nthreads, s, units, date, stamps, order)
            == (CloseOnDone(RunSeq(cfg, dry, s, units, date, stamps)), nthreads)
  {
  }

  /** Without threads, when every command builds, the records are the commands in list
      order and one process per unit is spawned. */
  lemma SequentialRecords(cfg: Config, dry: bool, s: Sys, units: seq<Arg>, date: string, stamps: seq<string>)
    requires |stamps| == |units| && s.logOpen
    requires forall i :: 0 <= i < |units| ==> Builds(cfg, date, units[i])
    ensures RunSeq(cfg, dry, s, units, date, stamps)
            == Done(s.(log := s.log + Records(cfg, date, units, InOrder(|units|), stamps),
                       spawned := s.spawned + if dry then 0 else |units|))
  {
    SequentialFrom(cfg, dry, s, units, date, stamps, 0);
    assert units[0..] == units && stamps[0..] == stamps;
  }

  /** The sequential loop from position `i` on records units `i ..` in order. */
  lemma {:induction false} SequentialFrom(cfg: Config, dry: bool, s: Sys, units: seq<Arg>, date: string,
                                          stamps: seq<string>, i: nat)
    requires |stamps| == |units| && s.logOpen && i <= |units|
    requires forall j :: 0 <= j < |units| ==> Builds(cfg, date, units[j])
    ensures RunSeq(cfg, dry, s, units[i..], date, stamps[i..])
            == Done(s.(log := s.log + Records(cfg, date, units, Positions(i, |units|), stamps[i..]),
                       spawned := s.spawned + if dry then 0 else |units| - i))
    decreases |units| - i
  {
    var recs := Records(cfg, date, units, Positions(i, |units|), stamps[i..]);
    if i == |units| {
      assert s.log + recs == s.log;
    } else {
      var first := LogLine(Cmd(cfg, date, units[i]), stamps[i]);
      var s' := s.(log := s.log + [first], spawned := s.spawned + if dry then 0 else 1);
      SequentialStep(cfg, dry, s, units, date, stamps, i);
      SequentialFrom(cfg, dry, s', units, date, stamps, i + 1);
      var rest := Records(cfg, date, units, Positions(i + 1, |units|), stamps[i + 1..]);
      RecordsFrom(cfg, date, units, stamps, i);
      assert s.log + [first] + rest == s.log + recs;
    }
  }

  /** The records of units `i ..` are unit `i`'s record, then those of units `i + 1 ..`. */
  lemma RecordsFrom(cfg: Config, date: string, units: seq<Arg>, stamps: seq<string>, i: nat)
    requires |stamps| == |units| && i < |units|
    requires Builds(cfg, date, units[i])
    ensures Records(cfg, date, units, Positions(i, |units|), stamps[i..])
            == [LogLine(Cmd(cfg, date, units[i]), stamps[i])]
               + Records(cfg, date, units, Positions(i + 1, |units|), stamps[i + 1..])
  {
    assert Positions(i, |units|)[0] == i;
    assert Positions(i, |units|)[1..] == Positions(i + 1, |units|);
    assert stamps[i..][1..] == stamps[i + 1..];
  }

  /** The worker pool, when no unit creates a directory: every unit that builds has its
      record appended, in the workers' order, whatever the others do; one process is spawned
      per record unless this is a dry run; and the error raised is the first one in the
      workers' order. */
  lemma {:induction false} PoolOutcome(cfg: Config, dry: bool, s: Sys, units: seq<Arg>, order: seq<nat>,
                                       date: string, stamps: seq<string>)
    requires |stamps| == |order| && s.logOpen
    requires forall k :: 0 <= k < |order| ==> order[k] < |units| && !MakesDir(cfg, units[order[k]])
    ensures var o := RunAll(cfg, dry, s, units, order, date, stamps);
            var recs := Records(cfg, date, units, order, stamps);
            && o.sys == s.(log := s.log + recs, spawned := s.spawned + if dry then 0 else |recs|)
            && Report(o) == FirstError(cfg, date, units, order)
    decreases |order|
  {
    var recs := Records(cfg, date, units, order, stamps);
    if order == [] {
      assert s.log + recs == s.log;
    } else {
      var c := Command(cfg, units[order[0]], date);
      var u := Unit(cfg, dry, s, units[order[0]], date, stamps[0]);
      var mine := if c.Ok? then [LogLine(c.value, stamps[0])] else [];
      if c.Ok? {
        UnitDone(cfg, dry, s, units[order[0]], date, stamps[0]);
      } else {
        UnitFails(cfg, dry, s, units[order[0]], date, stamps[0]);
      }
      assert u.sys == s.(log := s.log + mine, spawned := s.spawned + if dry then 0 else |mine|);
      PoolOutcome(cfg, dry, u.sys, units, order[1..], date, stamps[1..]);
      var rest := Records(cfg, date, units, order[1..], stamps[1..]);
      assert s.log + mine + rest == s.log + recs;
    }
  }

  /** With a pool, when every command builds, the records are the commands in the
      workers' order and the run completes. */
  lemma PoolRecords(cfg: Config, dry: bool, s: Sys, units: seq<Arg>, order: seq<nat>,
                    date: string, stamps: seq<string>)
    requires |stamps| == |order| && s.logOpen
    requires forall k :: 0 <= k < |order| ==> order[k] < |units| && Builds(cfg, date, units[order[k]])
    ensures RunAll(cfg, dry, s, units, order, date, stamps)
            == Done(s.(log := s.log + Records(cfg, date, units, order, stamps),
                       spawned := s.spawned + if dry then 0 else |order|))
  {
    PoolOutcome(cfg, dry, s, units, order, date, stamps);
    if |order| > 0 {
      RecordsAt(cfg, date, units, order, stamps, 0);
    }
  }

  /** In pool mode every unit's command is recorded exactly once: for each unit there is one
      position of the new records holding its command, and no other position does. */
  lemma PoolRunsEachFileOnce(cfg: Config, dry: bool, nthreads: Option<int>, s: Sys, units: seq<Arg>,
                             date: string, stamps: seq<string>, order: seq<nat>, i: nat)
    requires |stamps| == |units| && IsPermutation(order, |units|) && s.logOpen
    requires forall j :: 0 <= j < |units| ==> Builds(cfg, date, units[j])
    requires Truthy(nthreads) && nthreads.value > 0 && i < |units|
    ensures var o := PerFile(cfg, dry, nthreads, s, units, date, stamps, order).0;
            && o.Done? && |o.sys.log| == |s.log| + |units| && !o.sys.logOpen
            && exists k :: 0 <= k < |units| && order[k] == i
                 && o.sys.log[|s.log| + k] == LogLine(Cmd(cfg, date, units[i]), stamps[k])
                 && forall l :: 0 <= l < |units| && l != k ==> order[l] != i
  {
    PoolRecords(cfg, dry, s, units, order, date, stamps);
    var o := PerFile(cfg, dry, nthreads, s, units, date, stamps, order).0;
    assert i in order;
    var k :| 0 <= k < |order| && order[k] == i;
    RecordsAt(cfg, date, units, order, stamps, k);
    assert o.sys.log[|s.log| + k] == Records(cfg, date, units, order, stamps)[k];
  }

  /** `run_per_file` of a Pool object over groups of paths, with a pool of workers: the run
      fails exactly when some group's output name cannot be found, and even then every
      group whose name is found has its merge command recorded. A rename-map miss fails
      only its own group. */
  lemma PoolGroupsIndependent(cfg: Config, dry: bool, nthreads: Option<int>, s: Sys, groups: seq<seq<string>>,
                              date: string, stamps: seq<string>, order: seq<nat>)
    requires cfg.tool.Pool? && s.logOpen
    requires |stamps| == |groups| && IsPermutation(order, |groups|)
    requires Truthy(nthreads) && nthreads.value > 0 && groups != []
    ensures var units := seq(|groups|, i requires 0 <= i < |groups| => Many(groups[i]));
            var o := PerFile(cfg, dry, nthreads, s, units, date, stamps, order).0;
            && (o.Failed? <==> exists i :: 0 <= i < |groups| && PoolCmd.OutputName(cfg.tool.filenameMap, groups[i]).Err?)
            && forall k :: 0 <= k < |order| && PoolCmd.OutputName(cfg.tool.filenameMap, groups[order[k]]).Ok? ==>
                 LogLine(Command(cfg, units[order[k]], date).value, stamps[k]) in o.sys.log
  {
    var units := seq(|groups|, i requires 0 <= i < |groups| => Many(groups[i]));
    var m := cfg.tool.filenameMap;
    PoolOutcome(cfg, dry, s, units, order, date, stamps);
    var recs := Records(cfg, date, units, order, stamps);
    var o := PerFile(cfg, dry, nthreads, s, units, date, stamps, order).0;
    assert o.sys.log == s.log + recs;
    forall i | 0 <= i < |groups|
      ensures Command(cfg, units[i], date).Ok? <==> PoolCmd.OutputName(m, groups[i]).Ok?
    {
      PoolNamesEveryFile(cfg, groups[i], date);
    }
    if o.Failed? {
      var k :| 0 <= k < |order| && Command(cfg, units[order[k]], date).Err?;
    } else {
      forall i | 0 <= i < |groups|
        ensures PoolCmd.OutputName(m, groups[i]).Ok?
      {
        assert i in order;
        var k :| 0 <= k < |order| && order[k] == i;
      }
    }
    forall k | 0 <= k < |order| && PoolCmd.OutputName(m, groups[order[k]]).Ok?
      ensures LogLine(Command(cfg, units[order[k]], date).value, stamps[k]) in o.sys.log
    {
      RecordsHold(cfg, date, units, order, stamps, k);
    }
  }

  /** A unit whose command builds without touching the disk, on an open log, appends
      that command's record and spawns one process unless dry. */
  lemma UnitDone(cfg: Config, dry: bool, s: Sys, arg: Arg, date: string, stamp: string)
    requires s.logOpen && !MakesDir(cfg, arg) && Command(cfg, arg, date).Ok?
    ensures Unit(cfg, dry, s, arg, date, stamp)
            == Done(s.(log := s.log + [LogLine(Command(cfg, arg, date).value, stamp)],
                       spawned := s.spawned + if dry then 0 else 1))
  {
  }

  /** A unit whose command does not build fails with the builder's error, in the state it
      started from. */
  lemma UnitFails(cfg: Config, dry: bool, s: Sys, arg: Arg, date: string, stamp: string)
    requires !MakesDir(cfg, arg) && Command(cfg, arg, date).Err?
    ensures Unit(cfg, dry, s, arg, date, stamp) == Failed(s, Command(cfg, arg, date).error)
  {
  }

  /** A StringTie unit whose ctab directory exists fails, recording nothing. */
  lemma UnitCtabExists(cfg: Config, dry: bool, s: Sys, path: string, date: string, stamp: string)
    requires cfg.tool.StringTie? && Paths.DirKey(StringTieCmd.CtabDir(cfg.tool.ctabPath, path)) in s.dirs
    ensures Unit(cfg, dry, s, One(path), date, stamp)
            == Failed(s, DirExists(StringTieCmd.CtabDir(cfg.tool.ctabPath, path)))
  {
    CtabBuild(cfg, s.dirs, One(path), date);
  }

  /** A StringTie unit whose ctab directory is new creates it, then records its command. */
  lemma UnitCtabFresh(cfg: Config, dry: bool, s: Sys, path: string, date: string, stamp: string)
    requires cfg.tool.StringTie? && s.logOpen
    requires Paths.DirKey(StringTieCmd.CtabDir(cfg.tool.ctabPath, path)) !in s.dirs
    ensures var d := StringTieCmd.CtabDir(cfg.tool.ctabPath, path);
            var u := Unit(cfg, dry, s, One(path), date, stamp);
            && u.Done? && u.sys.dirs == s.dirs + {Paths.DirKey(d)} && u.sys.logOpen
            && u.sys.log == s.log + [LogLine(StringTieCommand(cfg, date, d, path), stamp)]
            && u.sys.spawned == s.spawned + (if dry then 0 else 1)
  {
    var d := StringTieCmd.CtabDir(cfg.tool.ctabPath, path);
    CtabBuild(cfg, s.dirs, One(path), date);
    var g := Generate(cfg, s.dirs, One(path), date);
    assert g.Ok? && g.value.0 == StringTieCommand(cfg, date, d, path) && g.value.1 == s.dirs + {Paths.DirKey(d)};
  }

  /** A record names whatever its command names. */
  lemma RecordNames(cmd: string, stamp: string, p: string)
    requires Contains(cmd, p)
    ensures Contains(LogLine(cmd, stamp), p)
  {
    ContainsPrefix(cmd, "\t " + stamp + "\n", p);
    assert LogLine(cmd, stamp) == cmd + ("\t " + stamp + "\n");
  }

  /** A batch command that builds and names every input is recorded on one line, which
      then names every input too; the log is closed afterwards. */
  lemma BatchRecorded(cfg: Config, dry: bool, s: Sys, paths: seq<string>, date: string, stamp: string)
    requires s.logOpen && Command(cfg, Many(paths), date).Ok?
    requires forall i :: 0 <= i < |paths| ==> Contains(Command(cfg, Many(paths), date).value, paths[i])
    ensures var o := CloseOnDone(Unit(cfg, dry, s, Many(paths), date, stamp));
            && o.Done? && |o.sys.log| == |s.log| + 1 && s.log <= o.sys.log && !o.sys.logOpen
            && o.sys.spawned == s.spawned + (if dry then 0 else 1)
            && forall i :: 0 <= i < |paths| ==> Contains(o.sys.log[|s.log|], paths[i])
  {
    var cmd := Command(cfg, Many(paths), date).value;
    UnitDone(cfg, dry, s, Many(paths), date, stamp);
    forall i | 0 <= i < |paths|
      ensures Contains(LogLine(cmd, stamp), paths[i])
    {
      RecordNames(cmd, stamp, paths[i]);
    }
  }

  /** With `run_on_files`, featureCounts gets one command, recorded on one line that names
      every input; an empty list fails before anything is recorded. */
  lemma FeatureCountsBatch(cfg: Config, dry: bool, s: Sys, paths: seq<string>, date: string, stamp: string)
    requires cfg.tool.FeatureCounts? && s.logOpen
    ensures var o := CloseOnDone(Unit(cfg, dry, s, Many(paths), date, stamp));
            && (paths == [] <==> o == Failed(s, EmptyInput))
            && (paths != [] ==>
                  && o.Done? && |o.sys.log| == |s.log| + 1 && s.log <= o.sys.log && !o.sys.logOpen
                  && o.sys.spawned == s.spawned + (if dry then 0 else 1)
                  && forall i :: 0 <= i < |paths| ==> Contains(o.sys.log[|s.log|], paths[i]))
  {
    FeatureCountsNamesEveryFile(cfg, paths, date);
    if paths == [] {
      UnitFails(cfg, dry, s, Many(paths), date, stamp);
    } else {
      BatchRecorded(cfg, dry, s, paths, date, stamp);
    }
  }

  /** featureCounts' batch command fails only on an empty list, and names every input. */
  lemma FeatureCountsNamesEveryFile(cfg: Config, paths: seq<string>, date: string)
    requires cfg.tool.FeatureCounts?
    ensures paths == [] ==> Command(cfg, Many(paths), date) == Err(EmptyInput)
    ensures paths != [] ==> Command(cfg, Many(paths), date).Ok?
    ensures paths != [] ==> forall i :: 0 <= i < |paths| ==> Contains(Command(cfg, Many(paths), date).value, paths[i])
  {
    FeatureCountsDispatch(cfg, paths, date);
    if paths != [] {
      FeatureCountsCmd.CommandNamesAll(cfg.programLocation, cfg.tool.fcParamStr, cfg.tool.fcGtfPath,
                                       cfg.outputDir, cfg.name, date, paths);
    }
  }

  /** With `run_on_files`, a merge that finds its output name is one command naming every
      input; one that does not fails before anything is recorded. */
  lemma PoolBatch(cfg: Config, dry: bool, s: Sys, paths: seq<string>, date: string, stamp: string)
    requires cfg.tool.Pool? && s.logOpen
    ensures var o := CloseOnDone(Unit(cfg, dry, s, Many(paths), date, stamp));
            && (PoolCmd.OutputName(cfg.tool.filenameMap, paths).Err? <==> o.Failed?)
            && (o.Failed? ==> o == Failed(s, PoolCmd.OutputName(cfg.tool.filenameMap, paths).error))
            && (o.Done? ==>
                  && |o.sys.log| == |s.log| + 1 && s.log <= o.sys.log && !o.sys.logOpen
                  && forall i :: 0 <= i < |paths| ==> Contains(o.sys.log[|s.log|], paths[i]))
  {
    PoolNamesEveryFile(cfg, paths, date);
    if Command(cfg, Many(paths), date).Err? {
      UnitFails(cfg, dry, s, Many(paths), date, stamp);
    } else {
      BatchRecorded(cfg, dry, s, paths, date, stamp);
    }
  }

  /** The merge command fails exactly when its output name cannot be found, and names
      every input. */
  lemma PoolNamesEveryFile(cfg: Config, paths: seq<string>, date: string)
    requires cfg.tool.Pool?
    ensures var name := PoolCmd.OutputName(cfg.tool.filenameMap, paths);
            && (name.Err? ==> Command(cfg, Many(paths), date) == Err(name.error))
            && (name.Ok? ==> Command(cfg, Many(paths), date).Ok?)
    ensures Command(cfg, Many(paths), date).Ok? ==>
              forall i :: 0 <= i < |paths| ==> Contains(Command(cfg, Many(paths), date).value, paths[i])
  {
    PoolDispatch(cfg, paths, date);
    if Command(cfg, Many(paths), date).Ok? {
      PoolCmd.CommandNamesAll(cfg.programLocation, cfg.outputDir, cfg.tool.filenameMap, paths);
    }
  }

  /** A Cutadapt or Hisat2 object whose mode was rejected fails on its first file without
      recording anything, as not configured whether it was given a path or a list. */
  lemma UnconfiguredRecordsNothing(cfg: Config, dry: bool, s: Sys, units: seq<Arg>, date: string,
                                   stamps: seq<string>)
    requires cfg.tool == Cutadapt(None) || cfg.tool == Hisat2(None)
    requires |stamps| == |units| && units != []
    ensures RunSeq(cfg, dry, s, units, date, stamps) == Failed(s, NotConfigured)
  {
  }

  /** Two StringTie samples with the same stem share a ctab directory: the sequential
      loop records the first command and then fails on the second, whose directory
      now exists. */
  lemma StringTieSameStemStops(cfg: Config, dry: bool, s: Sys, a: string, b: string, date: string,
                               stamps: seq<string>)
    requires cfg.tool.StringTie? && s.logOpen && |stamps| == 2
    requires Paths.DirKey(StringTieCmd.CtabDir(cfg.tool.ctabPath, a)) !in s.dirs
    requires StringTieCmd.SampleStem(a) == StringTieCmd.SampleStem(b)
    ensures var d := StringTieCmd.CtabDir(cfg.tool.ctabPath, a);
            var o := RunSeq(cfg, dry, s, [One(a), One(b)], date, stamps);
            && o.Failed? && o.error == DirExists(d)
            && o.sys.log == s.log + [LogLine(StringTieCommand(cfg, date, d, a), stamps[0])]
            && o.sys.dirs == s.dirs + {Paths.DirKey(d)}
  {
    var d := StringTieCmd.CtabDir(cfg.tool.ctabPath, a);
    var units := [One(a), One(b)];
    assert StringTieCmd.CtabDir(cfg.tool.ctabPath, b) == d;
    UnitCtabFresh(cfg, dry, s, a, date, stamps[0]);
    var s1 := Unit(cfg, dry, s, One(a), date, stamps[0]).sys;
    UnitCtabExists(cfg, dry, s1, b, date, stamps[1]);
    assert units[0..] == units && stamps[0..] == stamps;
    RunSeqStep(cfg, dry, s, units, date, stamps, 0);
    RunSeqStep(cfg, dry, s1, units, date, stamps, 1);
  }

  /** FastQC's command depends neither on the run's date nor on the tool name. */
  lemma FastQCIgnoresNameAndDate(cfg: Config, otherName: string, arg: Arg, date: string, otherDate: string)
    requires cfg.tool.FastQC?
    ensures Command(cfg, arg, date) == Command(cfg.(name := otherName), arg, otherDate)
  {
  }

  // ---- file discovery ----

  /** The `i`-th listed name contains the ending and `p` is its joined path. */
  predicate Picks(dataDir: string, ending: string, listing: seq<string>, i: int, p: string) {
    0 <= i < |listing| && Contains(listing[i], ending) && p == Paths.Join(dataDir, listing[i])
  }

  /** A path is discovered exactly when it is the data directory joined to a listed name
      containing the ending. */
  lemma DiscoverMembers(dataDir: string, ending: string, listing: seq<string>, p: string)
    ensures p in Discover(dataDir, ending, listing) <==> exists i :: Picks(dataDir, ending, listing, i, p)
  {
    if p in Discover(dataDir, ending, listing) {
      DiscoveredIsPicked(dataDir, ending, listing, p);
    }
    if exists i :: Picks(dataDir, ending, listing, i, p) {
      var i :| Picks(dataDir, ending, listing, i, p);
      PickedIsDiscovered(dataDir, ending, listing, i, p);
    }
  }

  /** Every discovered path comes from some listed name. */
  lemma {:induction false} DiscoveredIsPicked(dataDir: string, ending: string, listing: seq<string>, p: string)
    requires p in Discover(dataDir, ending, listing)
    ensures exists i :: Picks(dataDir, ending, listing, i, p)
    decreases |listing|
  {
    var n := |listing| - 1;
    DiscoverStep(dataDir, ending, listing, p);
    if p in Discover(dataDir, ending, listing[..n]) {
      DiscoveredIsPicked(dataDir, ending, listing[..n], p);
      var i :| Picks(dataDir, ending, listing[..n], i, p);
      PicksInPrefix(dataDir, ending, listing, n, i, p);
      assert Picks(dataDir, ending, listing, i, p);
    } else {
      assert Picks(dataDir, ending, listing, n, p);
    }
  }

  /** Every pick is discovered. */
  lemma {:induction false} PickedIsDiscovered(dataDir: string, ending: string, listing: seq<string>, i: int, p: string)
    requires Picks(dataDir, ending, listing, i, p)
    ensures p in Discover(dataDir, ending, listing)
    decreases |listing|
  {
    var n := |listing| - 1;
    DiscoverStep(dataDir, ending, listing, p);
    if i < n {
      PicksInPrefix(dataDir, ending, listing, n, i, p);
      PickedIsDiscovered(dataDir, ending, listing[..n], i, p);
    }
  }

  /** The last entry of a listing adds its own pick, if any, to those of the rest. */
  lemma DiscoverStep(dataDir: string, ending: string, listing: seq<string>, p: string)
    requires listing != []
    ensures p in Discover(dataDir, ending, listing)
            <==> p in Discover(dataDir, ending, listing[..|listing| - 1]) || Picks(dataDir, ending, listing, |listing| - 1, p)
  {
  }

  /** A pick at a position of a prefix is the same pick in the whole listing. */
  lemma PicksInPrefix(dataDir: string, ending: string, listing: seq<string>, n: nat, i: int, p: string)
    requires n <= |listing| && 0 <= i < n
    ensures Picks(dataDir, ending, listing[..n], i, p) <==> Picks(dataDir, ending, listing, i, p)
  {
    assert listing[..n][i] == listing[i];
  }

  /** Discovery keeps listing order: the listing's two halves are discovered one after
      the other. */
  lemma {:induction false} DiscoverAppend(dataDir: string, ending: string, a: seq<string>, b: seq<string>)
    ensures Discover(dataDir, ending, a + b) == Discover(dataDir, ending, a) + Discover(dataDir, ending, b)
    decreases |b|
  {
    if b == [] {
      assert a + b == a;
    } else {
      var init := b[..|b| - 1];
      DiscoverAppend(dataDir, ending, a, init);
      assert (a + b)[..|a + b| - 1] == a + init;
      assert (a + b)[|a + b| - 1] == b[|b| - 1];
    }
  }

  /** At most one path per listed name. */
  lemma {:induction false} DiscoverLength(dataDir: string, ending: string, listing: seq<string>)
    ensures |Discover(dataDir, ending, listing)| <= |listing|
    decreases |listing|
  {
    if listing != [] {
      DiscoverLength(dataDir, ending, listing[..|listing| - 1]);
    }
  }
}

=== FILE: pool.dfy ===
/** `Pool` (scirnap/pool.py): merges a group of BAM files with `samtools merge`. The merged
    file is named from a rename map keyed by the group's first file, or after that file. */
module PoolCmd {
  import opened Results
  import opened Text
  import Paths

  const DefaultEnding := ".bam"
  const DefaultName := "BAMPOOL"

  /** The name of the merged file. A non-empty map must hold the first file as a key (a
      missing key is a failure, not a fallback); an empty map (the original's `None` or
      `{}`) falls back to the first file's basename. An empty group has no first file. */
  function OutputName(filenameMap: map<string, string>, files: seq<string>): (r: Result<string>)
    ensures files == [] ==> r == Err(EmptyInput)
    ensures files != [] && filenameMap == map[] ==> r == Ok(Paths.GetFilename(files[0]))
    ensures files != [] && filenameMap != map[] ==>
      if files[0] in filenameMap then r == Ok(filenameMap[files[0]]) else r == Err(MissingKey(files[0]))
  {
    if files == [] then Err(EmptyInput)
    else if filenameMap != map[] then
      if files[0] in filenameMap then Ok(filenameMap[files[0]]) else Err(MissingKey(files[0]))
    else Ok(Paths.GetFilename(files[0]))
  }

  /** Where the merged BAM is written. */
  function MergedPath(outputDir: string, name: string): string {
    Paths.Join(outputDir, name) + ".merged.bam"
  }

  /** `Pool.generate_cmd`: `<program> merge <output>.merged.bam <every file, space-joined>`. */
  function Command(program: string, outputDir: string, filenameMap: map<string, string>, files: seq<string>): (r: Result<string>)
    ensures r.Ok? <==> OutputName(filenameMap, files).Ok?
    ensures r.Err? ==> r.error == OutputName(filenameMap, files).error
    ensures r.Ok? ==>
      var pre := program + " merge " + MergedPath(outputDir, OutputName(filenameMap, files).value) + " ";
      pre <= r.value && EndsWith(r.value, JoinSpace(files)) && |r.value| == |pre| + |JoinSpace(files)|
  {
    var name :- OutputName(filenameMap, files);
    var pre := program + " merge " + MergedPath(outputDir, name) + " ";
    assert (pre + JoinSpace(files))[|pre|..] == JoinSpace(files);
    Ok(pre + JoinSpace(files))
  }

  /** Only the group's first file decides the output name. */
  lemma NameFromFirstOnly(filenameMap: map<string, string>, a: seq<string>, b: seq<string>)
    requires a != [] && b != [] && a[0] == b[0]
    ensures OutputName(filenameMap, a) == OutputName(filenameMap, b)
  {
  }

  /** Every file of the group is named in a successfully built merge command. */
  lemma {:induction false} CommandNamesEveryFile(program: string, outputDir: string, filenameMap: map<string, string>, files: seq<string>, i: nat)
    requires i < |files| && Command(program, outputDir, filenameMap, files).Ok?
    ensures Contains(Command(program, outputDir, filenameMap, files).value, files[i])
  {
    var pre := program + " merge " + MergedPath(outputDir, OutputName(filenameMap, files).value) + " ";
    JoinContains(files, i, ' ');
    ContainsSuffix(pre, JoinSpace(files), files[i]);
  }

  /** A merge command that builds names all of its files. */
  lemma CommandNamesAll(program: string, outputDir: string, filenameMap: map<string, string>, files: seq<string>)
    requires Command(program, outputDir, filenameMap, files).Ok?
    ensures forall i :: 0 <= i < |files| ==> Contains(Command(program, outputDir, filenameMap, files).value, files[i])
  {
    forall i | 0 <= i < |files|
      ensures Contains(Command(program, outputDir, filenameMap, files).value, files[i])
    {
      CommandNamesEveryFile(program, outputDir, filenameMap, files, i);
    }
  }
}

=== FILE: results.dfy ===
/** Outcomes of the pipeline's operations. The original reports most failures by raising
    an exception or by returning nothing; here each of those becomes an `Err` value. */
module Results {

  datatype Option<+T> = None | Some(value: T)

  /** Why an operation did not produce its value. */
  datatype Error =
    | MissingKey(key: string)     // a dictionary or table lookup without that key
    | EmptyInput                  // `xs[0]` on an empty list
    | NotConfigured               // an attribute the constructor never set (it returned early)
    | NoCommand                   // a command builder that returned nothing
    | DirExists(path: string)     // `os.mkdir` on a directory that is already there
    | LogClosed                   // a write to the log after it was closed
    | BadThreadCount(n: int)      // a worker pool asked for fewer than one worker
    | WrongArgKind                // a single path where a list of paths is expected, or the reverse
    | UnknownMetric(metric: string)
    | BadFlag(flag: string)

  datatype Result<+T> = Ok(value: T) | Err(error: Error) {
    predicate IsFailure() { Err? }
    function PropagateFailure<U>(): Result<U>
      requires Err?
    {
      Err(error)
    }
    function Extract(): T
      requires Ok?
    {
      value
    }
  }
}

=== FILE: sort.dfy ===
/** `Sort` (scirnap/sort.py): sorts a BAM file with `samtools sort`. The sorted file keeps the
    input's basename minus its last two dot-separated pieces (`S1.merged.bam` gives `S1`). */
module SortCmd {
  import opened Text
  import Paths
  import PoolCmd

  const DefaultEnding := ".bam"
  const DefaultName := ""

  /** `'.'.join(basename.split('.')[:-2])` */
  function Stem(basename: string): string {
    var pieces := Split(basename, '.');
    Join(if |pieces| >= 2 then pieces[..|pieces| - 2] else [], '.')
  }

  /** `Sort.generate_cmd`: `<program> sort <path> -o <output_dir>/<stem>.sorted.bam`. */
  function Command(program: string, outputDir: string, path: string): (r: string)
    ensures program + " sort " + path + " -o " <= r
    ensures EndsWith(r, Paths.Join(outputDir, Stem(Paths.GetFilename(path))) + ".sorted.bam")
    ensures |r| == |program + " sort " + path + " -o "| + |Paths.Join(outputDir, Stem(Paths.GetFilename(path))) + ".sorted.bam"|
  {
    var pre := program + " sort " + path + " -o ";
    var target := Paths.Join(outputDir, Stem(Paths.GetFilename(path))) + ".sorted.bam";
    assert (pre + target)[|pre|..] == target;
    pre + target
  }

  /** The stem is always a prefix of the basename. */
  lemma {:induction false} StemIsPrefix(basename: string)
    ensures Stem(basename) <= basename
  {
    var pieces := Split(basename, '.');
    JoinSplit(basename, '.');
    if |pieces| >= 2 {
      JoinPrefix(pieces, |pieces| - 2, '.');
    }
  }

  /** A basename with fewer than three dot-separated pieces has an empty stem. */
  lemma FewPiecesEmptyStem(basename: string)
    requires |Split(basename, '.')| < 3
    ensures Stem(basename) == ""
  {
    var pieces := Split(basename, '.');
    if |pieces| == 2 {
      assert pieces[..0] == [];
    }
  }

  /** Dropping two endings: `<x>.<a>.<b>` has stem `x` whenever `a` and `b` hold no dot. */
  lemma {:induction false} StemDropsTwoEndings(x: string, a: string, b: string)
    requires '.' !in a && '.' !in b
    ensures Stem(x + "." + a + "." + b) == x
  {
    SplitNoSep(a, '.');
    SplitNoSep(b, '.');
    assert x + "." + a + "." + b == x + ['.'] + (a + ['.'] + b);
    SplitAround(a, '.', b);
    SplitAround(x, '.', a + ['.'] + b);
    var pieces := Split(x + "." + a + "." + b, '.');
    assert pieces == Split(x, '.') + [a, b];
    assert pieces[..|pieces| - 2] == Split(x, '.');
    JoinSplit(x, '.');
  }

  /** Pool then Sort: sorting the merged BAM of a group named `name` gives
      `<sort output dir>/<name>.sorted.bam`, since the stem drops `.merged.bam` again. */
  lemma MergedThenSorted(program: string, mergeDir: string, name: string, sortDir: string)
    requires Paths.NoSep(name) && name != []
    ensures EndsWith(Command(program, sortDir, PoolCmd.MergedPath(mergeDir, name)), Paths.Join(sortDir, name) + ".sorted.bam")
  {
    MergedFileName(mergeDir, name);
    StemOfMerged(name);
  }

  /** The merged BAM's file name is the group name followed by `.merged.bam`. */
  lemma MergedFileName(mergeDir: string, name: string)
    requires Paths.NoSep(name) && name != []
    ensures Paths.GetFilename(PoolCmd.MergedPath(mergeDir, name)) == name + ".merged.bam"
  {
    Paths.JoinAppend(mergeDir, name, ".merged.bam");
    Paths.NoSepConcat(name, ".merged.bam");
    Paths.GetFilenameOfJoin(mergeDir, name + ".merged.bam");
  }

  lemma StemOfMerged(name: string)
    ensures Stem(name + ".merged.bam") == name
  {
    assert name + ".merged.bam" == name + "." + "merged" + "." + "bam";
    StemDropsTwoEndings(name, "merged", "bam");
  }
}

=== FILE: stringtie.dfy ===
/** `StringTie` (scirnap/stringtie.py): assembles transcripts per alignment file. Each
    command also creates a per-sample directory for the ctab tables, so building a command
    changes the file system and a second build for the same sample fails. */
module StringTieCmd {
  import opened Results
  import opened Text
  import Paths

  const DefaultEnding := ".bam"
  const DefaultName := "STRINGTIE"

  /** The parameters it records in the log at construction, in order. */
  function Params(gtfPath: string, paramStr: string, ctabPath: string): (ps: seq<(string, string)>)
    ensures |ps| == 3
    ensures ps[0] == ("GTF path", gtfPath) && ps[1] == ("Param str", paramStr) && ps[2] == ("ctab path", ctabPath)
  {
    [("GTF path", gtfPath), ("Param str", paramStr), ("ctab path", ctabPath)]
  }

  /** The sample's name: its basename up to the first dot. */
  function SampleStem(path: string): (r: string)
    ensures Paths.NoSep(r) && '.' !in r
    ensures r <= Paths.GetFilename(path)
    ensures |r| < |Paths.GetFilename(path)| ==> Paths.GetFilename(path)[|r|] == '.'
  {
    Paths.GetFilenameNoSep(path);
    FirstPiece(Paths.GetFilename(path), '.')
  }

  /** The ctab directory of a sample: `<ctab path>/<stem>`. */
  function CtabDir(ctabPath: string, path: string): string {
    Paths.Join(ctabPath, SampleStem(path))
  }

  /** `_gen_ctab_str` as a step on the set of existing directories, each held as
      `Paths.DirKey` spells it: `os.mkdir` creates the sample's directory, or fails because
      a directory of that name is already there. */
  function MakeCtabDir(dirs: set<string>, ctabPath: string, path: string): (r: Result<(string, set<string>)>)
    ensures Paths.DirKey(CtabDir(ctabPath, path)) in dirs <==> r.Err?
    ensures r.Err? ==> r.error == DirExists(CtabDir(ctabPath, path))
    ensures r.Ok? ==> r.value.0 == CtabDir(ctabPath, path) && r.value.1 == dirs + {Paths.DirKey(r.value.0)}
  {
    var d := CtabDir(ctabPath, path);
    if Paths.DirKey(d) in dirs then Err(DirExists(d)) else Ok((d, dirs + {Paths.DirKey(d)}))
  }

  /** `StringTie.generate_cmd` once the ctab directory is known:
      `<program> <params> -G <gtf> -o <output>.gtf -b <ctab dir>  <path> ` (two spaces
      before the path and one after it). */
  function Command(program: string, paramStr: string, gtfPath: string, outputDir: string, name: string,
                   date: string, ctabDir: string, path: string): (r: string)
    ensures program + " " + paramStr + " -G " + gtfPath + " -o " + Paths.GenFnameStr(outputDir, name, date, path) + ".gtf -b " <= r
    ensures EndsWith(r, ctabDir + "  " + path + " ")
    ensures |r| == |program + " " + paramStr + " -G " + gtfPath + " -o " + Paths.GenFnameStr(outputDir, name, date, path) + ".gtf -b "|
                   + |ctabDir + "  " + path + " "|
  {
    var pre := program + " " + paramStr + " -G " + gtfPath + " -o " + Paths.GenFnameStr(outputDir, name, date, path) + ".gtf -b ";
    var post := ctabDir + "  " + path + " ";
    assert (pre + post)[|pre|..] == post;
    pre + post
  }

  /** Building for a second file of the same sample fails: its directory now exists. */
  lemma SameStemFailsAfterBuild(dirs: set<string>, ctabPath: string, a: string, b: string)
    requires MakeCtabDir(dirs, ctabPath, a).Ok?
    requires SampleStem(a) == SampleStem(b)
    ensures MakeCtabDir(MakeCtabDir(dirs, ctabPath, a).value.1, ctabPath, b) == Err(DirExists(CtabDir(ctabPath, a)))
  {
  }

  /** A file whose name starts with a dot has an empty stem, so its ctab directory is the
      ctab path itself: the build fails whenever that directory exists. */
  lemma EmptyStemTargetsCtabPath(dirs: set<string>, ctabPath: string, path: string)
    requires ctabPath != [] && SampleStem(path) == []
    ensures Paths.DirKey(CtabDir(ctabPath, path)) == Paths.DirKey(ctabPath)
    ensures Paths.DirKey(ctabPath) in dirs ==> MakeCtabDir(dirs, ctabPath, path).Err?
  {
    var d := CtabDir(ctabPath, path);
    assert d == Paths.Join(ctabPath, []);
    if ctabPath[|ctabPath| - 1] != '/' {
      assert d == ctabPath + "/";
      Paths.DirKeySlash(ctabPath);
    } else {
      assert d == ctabPath + [];
    }
  }

  /** Samples with different stems get different directories, so one build never blocks
      the other. */
  lemma DistinctStemsDistinctDirs(ctabPath: string, a: string, b: string)
    requires SampleStem(a) != SampleStem(b)
    ensures Paths.DirKey(CtabDir(ctabPath, a)) != Paths.DirKey(CtabDir(ctabPath, b))
  {
    var sa, sb := SampleStem(a), SampleStem(b);
    assert sa == [] || sa[0] != '/' by { if sa != [] { assert !Paths.IsSep(sa[0]); } }
    assert sb == [] || sb[0] != '/' by { if sb != [] { assert !Paths.IsSep(sb[0]); } }
    if sa != [] && sb != [] {
      NonEmptyStemKey(ctabPath, a);
      NonEmptyStemKey(ctabPath, b);
      if CtabDir(ctabPath, a) == CtabDir(ctabPath, b) {
        Paths.JoinInjective(ctabPath, sa, sb);
      }
    } else if sa == [] {
      NonEmptyStemKey(ctabPath, b);
      EmptyStemShorter(ctabPath, a, b);
    } else {
      NonEmptyStemKey(ctabPath, a);
      EmptyStemShorter(ctabPath, b, a);
    }
  }

  /** A non-empty stem ends its directory's path, which therefore ends in no `/`. */
  lemma NonEmptyStemKey(ctabPath: string, path: string)
    requires SampleStem(path) != []
    ensures Paths.DirKey(CtabDir(ctabPath, path)) == CtabDir(ctabPath, path)
  {
    var st := SampleStem(path);
    var d := CtabDir(ctabPath, path);
    assert !Paths.IsSep(st[|st| - 1]);
    assert d[|d| - 1] == st[|st| - 1];
  }

  /** The directory of an empty stem is no longer than the ctab path, that of a non-empty
      one is longer. */
  lemma EmptyStemShorter(ctabPath: string, a: string, b: string)
    requires SampleStem(a) == [] && SampleStem(b) != []
    ensures |Paths.DirKey(CtabDir(ctabPath, a))| < |Paths.DirKey(CtabDir(ctabPath, b))|
  {
    var sb := SampleStem(b);
    assert !Paths.IsSep(sb[0]);
    NonEmptyStemKey(ctabPath, b);
    Paths.JoinLength(ctabPath, sb);
    if ctabPath == [] {
      assert CtabDir(ctabPath, a) == Paths.Join([], []) == [];
    } else {
      EmptyStemTargetsCtabPath({}, ctabPath, a);
    }
  }

  /** A build for another sample succeeds after this one, unless its directory existed
      before. */
  lemma OtherStemStillBuilds(dirs: set<string>, ctabPath: string, a: string, b: string)
    requires MakeCtabDir(dirs, ctabPath, a).Ok?
    requires SampleStem(a) != SampleStem(b) && Paths.DirKey(CtabDir(ctabPath, b)) !in dirs
    ensures MakeCtabDir(MakeCtabDir(dirs, ctabPath, a).value.1, ctabPath, b).Ok?
  {
    DistinctStemsDistinctDirs(ctabPath, a, b);
  }
}

=== FILE: text.dfy ===
/** String operations the pipeline relies on, in Python's terms: substring containment
    (`sub in s`), `s.split(c)` and `c.join(xs)` for a one-character separator, and the
    negative slice `s[:-n]`. Strings are sequences of characters. */
module Text {

  /** `sub in s`: `sub` occurs somewhere in `s` as a contiguous run. */
  predicate Contains(s: string, sub: string)
    decreases |s|
  {
    sub <= s || (s != [] && Contains(s[1..], sub))
  }

  /** `s.endswith(suffix)` */
  predicate EndsWith(s: string, suffix: string) {
    |suffix| <= |s| && s[|s| - |suffix|..] == suffix
  }

  /** `sub` starts at position `i` of `s`. */
  predicate OccursAt(s: string, sub: string, i: int) {
    0 <= i <= |s| - |sub| && s[i..i + |sub|] == sub
  }

  /** Containment means an occurrence at some position. */
  lemma ContainsAt(s: string, sub: string)
    ensures Contains(s, sub) <==> exists i :: OccursAt(s, sub, i)
  {
    if Contains(s, sub) {
      ContainsHasOccurrence(s, sub);
    }
    if exists i :: OccursAt(s, sub, i) {
      var i :| OccursAt(s, sub, i);
      OccurrenceContains(s, sub, i);
    }
  }

  lemma {:induction false} ContainsHasOccurrence(s: string, sub: string)
    requires Contains(s, sub)
    ensures exists i :: OccursAt(s, sub, i)
    decreases |s|
  {
    if sub <= s {
      assert s[0..|sub|] == sub;
      assert OccursAt(s, sub, 0);
    } else {
      ContainsHasOccurrence(s[1..], sub);
      var i :| OccursAt(s[1..], sub, i);
      forall k | 0 <= k < |sub| ensures s[i + 1..i + 1 + |sub|][k] == sub[k] {
        assert sub[k] == s[1..][i..i + |sub|][k] == s[1..][i + k];
      }
      assert s[i + 1..i + 1 + |sub|] == sub;
      assert OccursAt(s, sub, i + 1);
    }
  }

  lemma {:induction false} OccurrenceContains(s: string, sub: string, i: int)
    requires OccursAt(s, sub, i)
    ensures Contains(s, sub)
    decreases i
  {
    if i == 0 {
      assert s[..|sub|] == sub;
    } else {
      forall k | 0 <= k < |sub| ensures s[1..][i - 1..i - 1 + |sub|][k] == sub[k] {
        assert sub[k] == s[i..i + |sub|][k] == s[1..][i - 1 + k];
      }
      assert s[1..][i - 1..i - 1 + |sub|] == sub;
      OccurrenceContains(s[1..], sub, i - 1);
    }
  }

  /** Every string contains itself framed by anything. */
  lemma {:induction false} ContainsMiddle(a: string, sub: string, b: string)
    ensures Contains(a + sub + b, sub)
    decreases |a|
  {
    if a == [] {
      assert sub <= a + sub + b;
    } else {
      assert (a + sub + b)[1..] == a[1..] + sub + b;
      ContainsMiddle(a[1..], sub, b);
    }
  }

  /** `s.split(c)`: the pieces between occurrences of `c`; there is always at least one. */
  function Split(s: string, c: char): (pieces: seq<string>)
    ensures |pieces| >= 1
    ensures forall k :: 0 <= k < |pieces| ==> c !in pieces[k]
    decreases |s|
  {
    if s == [] then [""]
    else if s[0] == c then [""] + Split(s[1..], c)
    else
      var t := Split(s[1..], c);
      [[s[0]] + t[0]] + t[1..]
  }

  /** `c.join(xs)` */
  function Join(xs: seq<string>, c: char): string
    decreases |xs|
  {
    if xs == [] then ""
    else if |xs| == 1 then xs[0]
    else xs[0] + [c] + Join(xs[1..], c)
  }

  /** `" ".join(xs)` */
  function JoinSpace(xs: seq<string>): string {
    Join(xs, ' ')
  }

  /** `s[:-n]` for a positive `n`: everything but the last `n` characters, or nothing. */
  function DropLast(s: string, n: nat): (r: string)
    requires n > 0
    ensures |s| >= n ==> s == r + s[|s| - n..]
    ensures |s| < n ==> r == ""
  {
    if |s| >= n then s[..|s| - n] else ""
  }

  /** `s.split(c)[0]`: the text before the first `c` (all of `s` if there is none). */
  function FirstPiece(s: string, c: char): (r: string)
    ensures r <= s && c !in r
    ensures |r| < |s| ==> s[|r|] == c
  {
    SplitFirst(s, c);
    Split(s, c)[0]
  }

  lemma {:induction false} SplitFirst(s: string, c: char)
    ensures Split(s, c)[0] <= s
    ensures |Split(s, c)[0]| < |s| ==> s[|Split(s, c)[0]|] == c
    decreases |s|
  {
    if s != [] && s[0] != c {
      SplitFirst(s[1..], c);
    }
  }

  /** Splitting and rejoining on the same character gives back the string. */
  lemma {:induction false} JoinSplit(s: string, c: char)
    ensures Join(Split(s, c), c) == s
    decreases |s|
  {
    if s == [] {
    } else if s[0] == c {
      JoinSplit(s[1..], c);
      assert Split(s, c) == [""] + Split(s[1..], c);
      assert ([""] + Split(s[1..], c))[1..] == Split(s[1..], c);
    } else {
      JoinSplit(s[1..], c);
      var t := Split(s[1..], c);
      var r := [[s[0]] + t[0]] + t[1..];
      assert Split(s, c) == r;
      if |t| == 1 {
        assert Join(r, c) == [s[0]] + t[0];
      } else {
        assert r[1..] == t[1..];
        assert Join(t, c) == t[0] + [c] + Join(t[1..], c);
        assert Join(r, c) == [s[0]] + t[0] + [c] + Join(t[1..], c);
      }
    }
  }

  /** A string without the separator is a single piece. */
  lemma {:induction false} SplitNoSep(s: string, c: char)
    requires c !in s
    ensures Split(s, c) == [s]
    decreases |s|
  {
    if s != [] {
      SplitNoSep(s[1..], c);
      assert [s[0]] + s[1..] == s;
    }
  }

  /** A separator between two strings separates their pieces. */
  lemma {:induction false} SplitAround(a: string, c: char, b: string)
    ensures Split(a + [c] + b, c) == Split(a, c) + Split(b, c)
    decreases |a|
  {
    if a == [] {
      assert a + [c] + b == [c] + b;
      assert ([c] + b)[1..] == b;
    } else {
      assert (a + [c] + b)[1..] == a[1..] + [c] + b;
      SplitAround(a[1..], c, b);
    }
  }

  /** Joining a prefix of the pieces gives a prefix of the joined string. */
  lemma {:induction false} JoinPrefix(xs: seq<string>, k: nat, c: char)
    requires k <= |xs|
    ensures Join(xs[..k], c) <= Join(xs, c)
    decreases |xs|
  {
    if k == 0 {
    } else if |xs| == 1 {
      assert xs[..k] == xs;
    } else if k == 1 {
      assert xs[..1] == [xs[0]];
    } else {
      JoinPrefix(xs[1..], k - 1, c);
      assert xs[..k][1..] == xs[1..][..k - 1];
    }
  }

  /** Each element of a list appears in its space-joined form. */
  lemma {:induction false} JoinContains(xs: seq<string>, i: nat, c: char)
    requires i < |xs|
    ensures Contains(Join(xs, c), xs[i])
    decreases |xs|
  {
    if |xs| == 1 {
      ContainsMiddle("", xs[0], "");
      assert "" + xs[0] + "" == xs[0];
    } else if i == 0 {
      ContainsMiddle("", xs[0], [c] + Join(xs[1..], c));
      assert "" + xs[0] + ([c] + Join(xs[1..], c)) == Join(xs, c);
    } else {
      JoinContains(xs[1..], i - 1, c);
      ContainsSuffix(xs[0] + [c], Join(xs[1..], c), xs[i]);
    }
  }

  /** Whatever a string contains, a longer string ending in it contains too. */
  lemma {:induction false} ContainsSuffix(a: string, b: string, sub: string)
    requires Contains(b, sub)
    ensures Contains(a + b, sub)
    decreases |a|
  {
    if a != [] {
      ContainsSuffix(a[1..], b, sub);
      assert (a + b)[1..] == a[1..] + b;
    } else {
      assert a + b == b;
    }
  }

  /** Whatever a string contains, a longer string starting with it contains too. */
  lemma {:induction false} ContainsPrefix(a: string, b: string, sub: string)
    requires Contains(a, sub)
    ensures Contains(a + b, sub)
  {
    ContainsAt(a, sub);
    var i :| OccursAt(a, sub, i);
    assert (a + b)[i..i + |sub|] == a[i..i + |sub|];
    assert OccursAt(a + b, sub, i);
    ContainsAt(a + b, sub);
  }
}
